=== FILE: README.md ===
# Blogging API core — a Dafny model

This project models the request-handling core of a NestJS blogging API that stores its data through Prisma. The core covers:

- **Authentication.** Sign-up stores a bcrypt-hashed password and a roles list. Sign-in checks the password and issues a JWT access token.
- **Authorisation.**
  - The roles guard reads a bearer token from the raw header list and verifies it. It admits the request when the token's `roles` claim shares a value with the roles the handler declares.
  - The `GetUser` decorator reads a bearer token from the `authorization` header and yields the verified claims.
- **Repositories.** They handle users (with a paginated listing), posts and comments. Each one maps store errors to HTTP exceptions in its own way.
- **Posts controller.** It adds three things on top of the repositories:
  - the author override on creation;
  - the ownership check on update;
  - the role restriction on delete.

Modelling choices:

- Every operation is a pure function. The store is a `map` keyed as the database keys it (users by their unique username, posts and comments by id).
- An operation that writes returns a `Step`, the new store together with the outcome. Its contract states that a failure leaves the store as it was.
- An exception is the `Failure` of a `Result`. A Prisma error is a `DbError`. Its `code` is present exactly when it is a `PrismaClientKnownRequestError`.
- Anything the code cannot see into is a parameter:
  - bcrypt's `genSalt`, `hash` and `compare`;
  - the JWT service's `sign` and `verify`;
  - `uuidv4()`;
  - the store's failures (`fault` parameters);
  - the clock.

Modules follow the source files:

| module | file |
|---|---|
| `Wrappers` | `Option` and `Result` |
| `Http` | HTTP exceptions, store errors, Nest's default 500 |
| `Text` | the JavaScript string operations used: `includes`, `startsWith`, `split`, `trim` |
| `Roles` | the role enum and the `some`/`includes` test of the guard |
| `Jwt` | claims, verification outcomes, thrown error names |
| `RolesGuard` | `src/auth/roles.guard.ts` |
| `GetUserDecorator` | `src/auth/get-user.decorator.ts` |
| `UsersRepository` | `src/auth/users.repository.ts` and the listing parameters of `src/auth/auth.controller.ts` |
| `AuthService` | `src/auth/auth.service.ts` |
| `PostsRepository` | `src/posts/posts.repository.ts` |
| `PostsController` | `src/posts/posts.controller.ts` |
| `CommentsRepository` | `src/comments/comments.repository.ts` |
| `AccessFlow` | sign-in followed by a guarded request |

## Model

| member | source | states |
|---|---|---|
| Text.IncludesIffOccurs | src/auth/roles.guard.ts:65 | `includes` holds exactly when the substring occurs at some position of the string |
| Text.StartsWithIncludes | src/auth/get-user.decorator.ts:31 | a string includes every prefix it starts with |
| Text.SplitFields | src/auth/roles.guard.ts:66 | `split(sep)` yields fields that contain no separator; there is one field exactly when the separator does not occur |
| Text.JoinSplit | src/auth/roles.guard.ts:66 | joining the fields of `split(sep)` with `sep` gives back the original string |
| Text.SplitJoin | src/auth/roles.guard.ts:66 | splitting a join of separator-free fields gives back those fields |
| Text.SplitTwo | src/auth/roles.guard.ts:66 | `a + sep + b` with separator-free `a` and `b` splits into exactly `[a, b]` |
| Text.SecondField | src/auth/roles.guard.ts:66 | `split(sep)[1]` is defined exactly when the separator occurs, and it holds no separator |
| Text.Trim | src/auth/roles.guard.ts:66 | `trim()` yields a contiguous slice of its input that neither starts nor ends with whitespace; only whitespace is removed |
| Text.TrimKeepsTrimmed | src/auth/roles.guard.ts:66 | a string that neither starts nor ends with whitespace is its own trim |
| Text.TrimIdempotent | src/auth/roles.guard.ts:66 | trimming twice gives the same as trimming once |
| Text.TrimEmptyIffWhitespace | src/auth/roles.guard.ts:66-67 | the trimmed string is empty, so the token falsy, exactly when the field is all whitespace |
| Roles.HasIffSomeEntry | src/auth/roles.guard.ts:34 | `roles.includes(role)` holds exactly when some held role has the same string value |
| Roles.AnyHeldIffShares | src/auth/roles.guard.ts:34 | `requiredRoles.some(role => roles?.includes(role))` holds exactly when a `roles` claim exists and shares a value with the required list |
| Roles.NothingSharedWithEmpty | src/auth/roles.guard.ts:34 | an empty required list or a missing `roles` claim makes the test false |
| Jwt.CompactIsBare | src/auth/roles.guard.ts:66 | a compact JWT (base64url segments and dots) contains no space and is unchanged by `trim()` |
| RolesGuard.EntryTokenMeaning | src/auth/roles.guard.ts:65-69 | an entry yields a token exactly when it includes `Bearer` and its second space-separated field exists and is not all whitespace; the token is exactly `trim()` of that field, so it neither starts nor ends with whitespace |
| RolesGuard.ScanFindsFirst | src/auth/roles.guard.ts:64-73 | the loop returns the token of the first entry that yields one, and null exactly when no entry yields one |
| RolesGuard.GetBearerToken | src/auth/roles.guard.ts:62-74 | a header list that is not an array yields null; any token found is non-empty and has no space |
| RolesGuard.GuardError | src/auth/roles.guard.ts:42-59 | the two "not logged in" messages become 400 "You are not logged in."; a token-expired or malformed-token error becomes 400 "Expired login token"; everything else becomes 500 "Something went wrong. Please contact the admin" |
| RolesGuard.CanActivate | src/auth/roles.guard.ts:19-60 | undeclared roles admit everyone; a missing token is 400 "You are not logged in."; admission implies a verified token whose roles share a value with the required ones; every exception is 400 or 500 |
| RolesGuard.VerifiedTokenDecides | src/auth/roles.guard.ts:33-41 | with a verified token the guard answers true exactly when the token's roles share a value with the required roles (any, not all) |
| RolesGuard.EmptyRequirementAllowsNobody | src/auth/roles.guard.ts:25-34 | a declared but empty roles list admits nobody, unlike an undeclared one |
| RolesGuard.RolelessTokenRefused | src/auth/roles.guard.ts:34 | a verified token without a `roles` claim is refused by every role-restricted route |
| RolesGuard.NoTokenNoVerify | src/auth/roles.guard.ts:29-33 | without a bearer token the verifier is never consulted |
| RolesGuard.RejectedTokenReported | src/auth/roles.guard.ts:50-58 | an expired and a badly signed token both give 400 "Expired login token"; any other verification error gives 500 |
| RolesGuard.BearerEntryYieldsToken | src/auth/roles.guard.ts:65-69 | the entry `Bearer <token>` yields exactly the compact token |
| GetUserDecorator.ExtractToken | src/auth/get-user.decorator.ts:29-35 | a token is returned exactly when the header starts with `Bearer `; it is the longest space-free prefix of the rest, possibly empty |
| GetUserDecorator.BearerSecondField | src/auth/get-user.decorator.ts:31-32 | after the `Bearer ` prefix, `split(' ')[1]` is the first field of the rest of the header |
| GetUserDecorator.FirstFieldIsPrefix | src/auth/get-user.decorator.ts:32 | the first field of a split is a prefix ending at the first separator or at the end |
| GetUserDecorator.GetUser | src/auth/get-user.decorator.ts:9-27 | a missing or empty token is 400 "No token provided"; a rejected one is 400 "Invalid or expired token"; otherwise the result is the verified claims, and a verified non-empty token always succeeds |
| GetUserDecorator.DoubleSpaceIsNoToken | src/auth/get-user.decorator.ts:14-16 | `Bearer` followed by two spaces is refused as carrying no token |
| GetUserDecorator.CompactHeaderVerified | src/auth/get-user.decorator.ts:9-27 | the header `Bearer <token>` gives exactly the verifier's verdict on that token |
| UsersRepository.CreateUser | src/auth/users.repository.ts:20-54 | succeeds exactly when the store does not fail and neither the username nor the id is taken; on success exactly one row is added, holding the fresh id, the hash of the password and the stored roles; a taken username and, since the store reports it as the same P2002, a taken id both give 409 "Username already exists"; every other error is a 500; a failure changes nothing |
| UsersRepository.FindOneByUsername | src/auth/users.repository.ts:56-58 | a store failure is passed on unchanged; otherwise it returns the row with that username, and null exactly when no row has it |
| UsersRepository.FloorDiv | src/auth/users.repository.ts:101 | `Math.floor(a / b)`: the greatest integer whose multiple of `b` does not pass `a`, for either sign of `b` |
| UsersRepository.CeilDiv | src/auth/users.repository.ts:100 | `Math.ceil(a / b)`: the least integer whose multiple of `b` reaches `a`, for either sign of `b` |
| UsersRepository.TotalPagesCover | src/auth/users.repository.ts:100 | `totalPages` is the fewest pages of `take` items that hold all the items |
| UsersRepository.CurrentPageHolds | src/auth/users.repository.ts:101 | `currentPage` is the 1-based page that holds item number `skip` |
| UsersRepository.NextPageLink | src/auth/users.repository.ts:100-102 | a next page is offered exactly when items remain after the current page |
| UsersRepository.NextPageInRange | src/auth/users.repository.ts:100-102 | a next page, when offered, is the page after the current one and lies within the page range |
| UsersRepository.PrevPageLink | src/auth/users.repository.ts:101-103 | a previous page is offered exactly when a whole page precedes `skip`; it is the page before the current one and at least 1 |
| UsersRepository.GetAllUsers | src/auth/users.repository.ts:60-120 | a store failure is 500 "Failed to retrieve users" and nothing else fails; otherwise the listing keeps the rows in order without their passwords, and its pagination block is the one the pagination lemmas describe for the total count |
| UsersRepository.ListingParams | src/auth/auth.controller.ts:28-31 | a non-zero `skip` or `take` from the query is passed on unchanged; a missing, non-numeric or zero value becomes 0 for the offset and 10 for the page size, so the page size is never zero |
| AuthService.SignUp | src/auth/auth.service.ts:15-17 | sign-up succeeds exactly when creation does and then adds the one row built from the body; it fails with 409 "Username already exists" for a taken username, a taken id or a P2002 error, and otherwise with a 500; a failure changes nothing |
| AuthService.SignIn | src/auth/auth.service.ts:19-38 | a failed user lookup is not caught and becomes Nest's default 500; otherwise a token is issued exactly when a user with that username exists and the password matches its hash, and the token signs that user's id and the username with no roles; every other failure is 401 "Please check your login credentials" |
| AuthService.UnknownUserNeverCompared | src/auth/auth.service.ts:23-25 | for an unknown username, or when the lookup fails, the password comparison is never made; an unknown username gets the 401 |
| AuthService.NoExistenceLeak | src/auth/auth.service.ts:25-37 | an unknown username and a wrong password produce the identical error |
| AuthService.SignUpThenSignIn | src/auth/auth.service.ts:15-38 | after a successful sign-up, signing in with the same credentials succeeds and signs the new id and the username |
| AuthService.SignUpTwiceConflicts | src/auth/users.repository.ts:45-49 | a second sign-up with the same username is 409 "Username already exists" |
| AuthService.SignInWithRoles | src/auth/auth.service.ts:19-38 | corrected sign-in: the same decision and the same errors as `signIn`, and the token carries the user's roles |
| AccessFlow.NamedBearerHeader | src/auth/roles.guard.ts:62-74 | in a raw header list of a name holding no `Bearer` followed by `Bearer <token>`, the name is passed over and the token is presented |
| AccessFlow.AuthorizationHeader | src/auth/roles.guard.ts:62-74 | the raw header pair `Authorization`, `Bearer <token>` presents that token |
| AccessFlow.SignInTokenRefused | src/auth/auth.service.ts:26 | every token `signIn` issues is refused by every role-restricted route, whatever raw headers present it |
| AccessFlow.AdminLockedOut | src/auth/auth.service.ts:26 | an administrator with the right password, presenting the token after a header name holding no `Bearer` (such as `Authorization`), is refused by a route that requires `Admin` |
| AccessFlow.SignInWithRolesAdmits | src/auth/roles.guard.ts:33-41 | with the corrected sign-in, the guard admits a user exactly when they hold a required role, whatever raw headers present the token |
| PostsRepository.CreatePost | src/posts/posts.repository.ts:17-33 | succeeds exactly when the store does not fail, the id is fresh and the author exists; on success the post stores the given title, content and author and nothing else changes; any failure is 500 "Failed to create post" and changes nothing |
| PostsRepository.FindAllPosts | src/posts/posts.repository.ts:35-41 | without a store failure it succeeds and returns exactly the stored posts; a store failure is 500 "Failed to retrieve posts" |
| PostsRepository.FindPostById | src/posts/posts.repository.ts:43-59 | without a store failure it returns the stored post when present, and a missing id is 500 "Failed to retrieve post"; a store failure always fails, and becomes a not-found only for P2025 |
| PostsRepository.MissingPostIsInternal | src/posts/posts.repository.ts:46-57 | on an empty table, the lookup of id "1" is a 500 and not a not-found |
| PostsRepository.FindPostByIdCorrected | src/posts/posts.repository.ts:43-59 | corrected lookup: a missing id is 404 "Post with ID … not found"; every other outcome is that of the code as written |
| PostsRepository.ApplyNoChanges | src/posts/posts.repository.ts:63-66 | an update body with no fields leaves the post as it is |
| PostsRepository.ApplyIdempotent | src/posts/posts.repository.ts:63-66 | sending the same update body twice has the effect of sending it once |
| PostsRepository.ApplyThenApply | src/posts/posts.repository.ts:63-66 | two update bodies in turn act as one body in which the later fields win |
| PostsRepository.UpdatePost | src/posts/posts.repository.ts:61-67 | an existing id is updated exactly when neither store call fails and the new author, if given, is a known user; exactly that post is then replaced by the body applied to it; a missing id or a lookup failure fails before any write, with the lookup's own error; a failure of the write is Nest's default 500; a failure changes nothing |
| PostsRepository.UpdateTouchesOnlyItsPost | src/posts/posts.repository.ts:61-67 | a successful update leaves the other posts and the set of ids as they were |
| PostsController.CreatePostRoute | src/posts/posts.controller.ts:27-33 | the post is created exactly when the store does not fail, the id is fresh and the caller has an id naming a known user; its author is the caller's id, whatever the body says; exactly that post is added; any failure is 500 "Failed to create post" and changes nothing |
| PostsController.BodyAuthorIgnored | src/posts/posts.controller.ts:29-32 | two bodies that differ only in `authorId` give the same result |
| PostsController.UpdatePostRoute | src/posts/posts.controller.ts:45-56 | a failure of the handler's own lookup is passed on before the ownership check; only the post's author can update it (401 "You can only edit your own posts" otherwise); for the author the result is the repository's update of the unchanged body, which succeeds without store failures; a failure changes nothing |
| PostsController.AuthorCanGiveAwayPost | src/posts/posts.controller.ts:51-55 | because the body is forwarded unchanged, an author can reassign a post to another user and is then refused when editing it again |
| PostsController.SharesDeleteRoles | src/posts/posts.controller.ts:58 | a roles list shares a value with `[Super_Admin, Admin]` exactly when it holds one of those two values |
| PostsController.DeleteRouteGuard | src/posts/posts.controller.ts:58-59 | the delete route admits a verified token exactly when its roles include `Super_Admin` or `Admin` |
| CommentsRepository.DtoDeterminesComment | src/comments/comments.repository.ts:65-74 | different comments have different DTOs |
| CommentsRepository.CreateComment | src/comments/comments.repository.ts:15-28 | succeeds exactly when the store does not fail, the id is fresh, and the post and author exist; on success exactly one comment is added with the given content, post and author; any failure is 500 "Failed to create comment" and changes nothing |
| CommentsRepository.GetCommentsByPost | src/comments/comments.repository.ts:30-36 | without a store failure it succeeds and returns exactly the DTOs of the comments on that post; a store failure is not caught and becomes Nest's default 500 |
| CommentsRepository.FindCommentById | src/comments/comments.repository.ts:50-63 | returns the comment exactly when it is present; a missing id is 404 "Comment with ID … not found"; a store error becomes a not-found only when its message is that text, and otherwise 500 "Failed to retrieve comment" |
| CommentsRepository.DeleteComment | src/comments/comments.repository.ts:38-48 | a missing id is a not-found and nothing is removed; a failed lookup passes on the lookup's classified error; a failed delete after a successful lookup is Nest's default 500; on success exactly that comment is removed and its DTO returned; without store failures an existing comment is always removed; a failure changes nothing |

## Left out

- Cryptography is not modelled. bcrypt (`genSalt`, `hash`, `compare`) and the JWT service (`sign`, `verify`) are parameters. Where a lemma needs them to agree, it says so in its `requires`: `compare` accepts a password against its own hash, and `verify` returns the claims `sign` was given.
- The claims a signed token carries besides those in the payload (`iat`, `exp`) are left out. Expiry appears only as the verifier's `TokenExpiredError` outcome, so `JWT_EXPIRES_IN` and `JWT_SECRET` are not modelled.
- Prisma is modelled as maps plus injected failures. The following are not modelled:
  - the `include: { author: true }` join;
  - the `cursor`, `where` and `orderBy` arguments of the listing (the listing takes the rows the query returned and the count as inputs);
  - the generated `createdAt`/`updatedAt` values of posts and users. Comments carry them, taken from a parameter `now`.
- The guard's logger and the `console.log` of the decoded token in `signIn` are left out, along with the `decode` call that feeds it. They have no effect on results.
- UsersRepository.CreateUser: the default role `Role.User` is not a member of the role enum. `common/roles.enum.ts` declares only the members `Agent` (value `Reviewer`), `Admin` and `Super_Admin`. The model stores a role whose value `"User"` is an arbitrary choice outside the declared three. What the running code would store for a missing enum member is not modelled.
- A `roles` claim that is present but not an array is not modelled. Claims hold either a list of roles or no roles.
- The delete-post handler is left out. It calls `postsService.remove`, which `PostsService` does not define. Only its `@Roles(Role.Super_Admin, Role.Admin)` restriction is modelled, in PostsController.DeleteRouteGuard.
- The services are pure delegation to the repositories and are not modelled separately, except for `signUp` and `signIn`.
- `AuthService.getAllUsers` (src/auth/auth.service.ts:44-46) declares no parameters and calls the repository without arguments. The model instead hands the parameters built by the controller (ListingParams) straight to UsersRepository.GetAllUsers.
- The controller's `JSON.parse` of `cursor`, `where` and `orderBy` is left out, and so are the DTO validation decorators.
- UsersRepository.GetAllUsers and UsersRepository.Paginate require a non-zero page size. The controller never passes zero (ListingParams). `Math.ceil` and `Math.floor` of a division by zero (`Infinity`/`NaN`) are not modelled.
- UsersRepository.GetAllUsers: the listing's `select` also returns `name`, `createdAt` and `updatedAt`. These columns are not modelled, because the user row here holds only the columns sign-up and sign-in use. The view keeps `id`, `username` and `roles` and, like the source, drops the password.
- Fractional `skip` and `take` values are not modelled: query parameters are integers here.
- CommentsRepository.ToCommentDto: timestamps are kept as instants. Their `toISOString()` rendering is not modelled.
- Module wiring, the Passport `AuthGuard` and `src/auth/jwt.strategy.ts` are not part of this model. The caller's claims are taken as the output of GetUserDecorator.GetUser.
- PostsRepository.UpdatePost and PostsController.UpdatePostRoute keep the lookup as written (a missing post is a 500). The corrected lookup is stated separately in PostsRepository.FindPostByIdCorrected.

## Findings

| source | as written | input that shows it | evidently intended | confidence | as-written member | corrected member |
|---|---|---|---|---|---|---|
| src/auth/auth.service.ts:26 | the signed payload holds only `id` and `username`, so the roles guard, which reads `roles` from the token, refuses every token issued by sign-in | a user whose stored roles are `[Admin]` signs in with the right password and calls a route declared `@Roles(Role.Admin)`; the guard answers false | the payload carries the user's roles, so holders of a required role are admitted | high; not executed | AccessFlow.SignInTokenRefused, AccessFlow.AdminLockedOut | AuthService.SignInWithRoles, AccessFlow.SignInWithRolesAdmits |
| src/posts/posts.repository.ts:46-57 | the not-found exception thrown inside the `try` is caught by its own `catch`; it is not a P2025 error, so a missing post becomes 500 "Failed to retrieve post" | `findPostById("1")` on an empty table | 404 `Post with ID "1" not found`, as the message built at line 47 says | high; not executed | PostsRepository.MissingPostIsInternal | PostsRepository.FindPostByIdCorrected |

=== FILE: access_flow.dfy ===
/** Sign-in followed by a request to a role-restricted route: what the roles guard makes of
    the tokens `signIn` issues. */
module AccessFlow {
  import opened Wrappers
  import opened Http
  import opened Roles
  import opened Jwt
  import opened UsersRepository
  import opened AuthService
  import opened RolesGuard
  import Text

  /** The raw header list Node hands over alternates names and values: an entry that holds
      no `Bearer` (a header name such as `Authorization`) is passed over, and the value after
      it presents the token. */
  lemma NamedBearerHeader(name: string, token: string)
    requires !Text.Includes(name, "Bearer")
    requires IsCompact(token)
    ensures GetBearerToken(Some([name, "Bearer " + token])) == Some(token)
  {
    var items := [name, "Bearer " + token];
    assert EntryToken(items[0]) == None;
    assert items[1..] == ["Bearer " + token];
    BearerEntryYieldsToken(token);
    assert ScanHeaders(items[1..]) == Some(token);
    assert ScanHeaders(items) == ScanHeaders(items[1..]);
  }

  /** The name of the header that carries the token. */
  const Authorization := "Authorization"

  /** The `Authorization` header in particular. */
  lemma AuthorizationHeader(token: string)
    requires IsCompact(token)
    ensures GetBearerToken(Some([Authorization, "Bearer " + token])) == Some(token)
  {
    assert 'B' !in Authorization;
    Text.MissingFirstCharExcludes(Authorization, "Bearer");
    NamedBearerHeader(Authorization, token);
  }

  /** As written, every token `signIn` issues is refused by every route that declares
      roles, whatever roles the user holds: the payload has no `roles` claim. */
  lemma SignInTokenRefused(users: UserTable, dto: Credentials, fault: Option<DbError>,
                           compare: (string, string) -> bool, sign: Claims -> string,
                           verify: string -> VerifyOutcome, required: seq<Role>,
                           rawHeaders: Option<seq<string>>)
    requires Keyed(users)
    requires Verifies(verify, sign)
    requires SignIn(users, dto, fault, compare, sign).Success?
    requires GetBearerToken(rawHeaders) == Some(SignIn(users, dto, fault, compare, sign).value)
    ensures CanActivate(Some(required), rawHeaders, verify) == Success(false)
  {
    var token := SignIn(users, dto, fault, compare, sign).value;
    var u :| u in users.Values && u.username == dto.username
             && token == sign(Claims(Some(u.id), Some(dto.username), None));
    RolelessTokenRefused(required, rawHeaders, verify, token,
                         Claims(Some(u.id), Some(dto.username), None));
  }

  /** The concrete case: an administrator with the right password is locked out of a route
      that requires `Admin`, presenting the token after a header name holding no `Bearer`,
      such as `Authorization` (AuthorizationHeader). */
  lemma AdminLockedOut(users: UserTable, dto: Credentials, compare: (string, string) -> bool,
                       sign: Claims -> string, verify: string -> VerifyOutcome, name: string)
    requires Keyed(users)
    requires Verifies(verify, sign)
    requires dto.username in users && users[dto.username].roles == [Admin]
    requires compare(dto.password, users[dto.username].password)
    requires forall c :: IsCompact(sign(c))
    requires !Text.Includes(name, "Bearer")
    ensures var token := SignIn(users, dto, None, compare, sign).value;
            CanActivate(Some([Admin]), Some([name, "Bearer " + token]), verify) == Success(false)
  {
    assert users[dto.username] in users.Values;
    var token := SignIn(users, dto, None, compare, sign).value;
    NamedBearerHeader(name, token);
    SignInTokenRefused(users, dto, None, compare, sign, verify, [Admin], Some([name, "Bearer " + token]));
  }

  /** With the roles in the payload, a signed-in user passes the guard of a route exactly
      when they hold one of its required roles. */
  lemma SignInWithRolesAdmits(users: UserTable, dto: Credentials, fault: Option<DbError>,
                              compare: (string, string) -> bool, sign: Claims -> string,
                              verify: string -> VerifyOutcome, required: seq<Role>,
                              rawHeaders: Option<seq<string>>)
    requires Keyed(users)
    requires Verifies(verify, sign)
    requires SignInWithRoles(users, dto, fault, compare, sign).Success?
    requires GetBearerToken(rawHeaders) == Some(SignInWithRoles(users, dto, fault, compare, sign).value)
    ensures CanActivate(Some(required), rawHeaders, verify)
            == Success(Shares(required, users[dto.username].roles))
  {
    var token := SignInWithRoles(users, dto, fault, compare, sign).value;
    var u :| u in users.Values && u.username == dto.username
             && token == sign(Claims(Some(u.id), Some(dto.username), Some(u.roles)));
    assert u == users[dto.username];
    VerifiedTokenDecides(required, rawHeaders, verify, token,
                         Claims(Some(u.id), Some(dto.username), Some(u.roles)));
  }
}

=== FILE: auth_service.dfy ===
/** `AuthService` (src/auth/auth.service.ts): sign-up and sign-in. */
module AuthService {
  import opened Wrappers
  import opened Http
  import opened Roles
  import opened Jwt
  import opened UsersRepository

  const BadCredentials := "Please check your login credentials"

  /** `signUp` hands the body to `createUser` unchanged. */
  function SignUp(users: UserTable, dto: Credentials, salt: string,
                  hash: (string, string) -> string, freshId: string,
                  fault: Option<DbError>): (r: Step<UserTable, ()>)
    requires Keyed(users)
    ensures Keyed(r.state)
    ensures r.outcome.Success? <==> fault.None? && dto.username !in users && freshId !in Ids(users)
    ensures r.outcome.Failure? ==> r.state == users
    ensures r.outcome.Failure? ==>
              r.outcome.error in {HttpError(Conflict, UsernameTaken), HttpError(InternalServerError, DefaultInternalMessage)}
    ensures fault.None? && dto.username in users ==> r.outcome == Failure(HttpError(Conflict, UsernameTaken))
    ensures fault.None? && freshId in Ids(users) ==> r.outcome == Failure(HttpError(Conflict, UsernameTaken))
    ensures fault.Some? ==> r.outcome.Failure? && (r.outcome.error.status == Conflict <==> fault.value.code == Some(UniqueViolation))
    ensures r.outcome.Success? ==>
              && r.state.Keys == users.Keys + {dto.username}
              && r.state[dto.username] == User(freshId, dto.username, hash(dto.password, salt), StoredRoles(dto.roles))
              && forall name | name in users :: r.state[name] == users[name]
  {
    CreateUser(users, dto, salt, hash, freshId, fault)
  }

  /** The payload `signIn` signs: the user's id and the username, and no roles. */
  function SignInPayload(user: User, username: string): Claims {
    Claims(Some(user.id), Some(username), None)
  }

  /** `signIn`. `fault` is a failure of the user lookup, `compare` stands for bcrypt's
      `compare` and `sign` for the JWT service's `sign`; the access token is returned, or the
      exception thrown. A failed lookup is not caught and reaches Nest's default handler. */
  function SignIn(users: UserTable, dto: Credentials, fault: Option<DbError>,
                  compare: (string, string) -> bool, sign: Claims -> string): (r: Result<string, HttpError>)
    requires Keyed(users)
    ensures fault.Some? ==> r == Failure(Uncaught)
    ensures r.Success? <==> fault.None? && exists u :: u in users.Values && u.username == dto.username
                                                       && compare(dto.password, u.password)
    ensures r.Success? ==> exists u :: u in users.Values && u.username == dto.username
                                       && r.value == sign(Claims(Some(u.id), Some(dto.username), None))
    ensures r.Failure? && fault.None? ==> r.error == HttpError(Unauthorized, BadCredentials)
  {
    match FindOneByUsername(users, dto.username, fault)
    case Failure(_) => Failure(Uncaught)
    case Success(user) =>
      if user.Some? && compare(dto.password, user.value.password) then
        Success(sign(SignInPayload(user.value, dto.username)))
      else
        Failure(HttpError(Unauthorized, BadCredentials))
  }

  /** An unknown username or a failed lookup ends sign-in before any password comparison:
      the outcome does not depend on `compare`. */
  lemma UnknownUserNeverCompared(users: UserTable, dto: Credentials, fault: Option<DbError>,
                                 c1: (string, string) -> bool, c2: (string, string) -> bool,
                                 sign: Claims -> string)
    requires Keyed(users)
    requires dto.username !in users || fault.Some?
    ensures SignIn(users, dto, fault, c1, sign) == SignIn(users, dto, fault, c2, sign)
    ensures fault.None? ==> SignIn(users, dto, fault, c1, sign) == Failure(HttpError(Unauthorized, BadCredentials))
  {
  }

  /** An unknown username and a wrong password produce the identical error. */
  lemma NoExistenceLeak(users: UserTable, unknown: Credentials, wrong: Credentials,
                        compare: (string, string) -> bool, sign: Claims -> string)
    requires Keyed(users)
    requires unknown.username !in users
    requires wrong.username in users && !compare(wrong.password, users[wrong.username].password)
    ensures SignIn(users, unknown, None, compare, sign) == SignIn(users, wrong, None, compare, sign)
  {
  }

  /** After a successful sign-up, signing in with the same username and password succeeds
      (given that bcrypt's `compare` accepts a password against its own hash), and the
      token signs exactly the new id and the username. */
  lemma SignUpThenSignIn(users: UserTable, dto: Credentials, salt: string,
                           hash: (string, string) -> string, freshId: string,
                           compare: (string, string) -> bool, sign: Claims -> string)
    requires Keyed(users)
    requires compare(dto.password, hash(dto.password, salt))
    requires SignUp(users, dto, salt, hash, freshId, None).outcome.Success?
    ensures var after := SignUp(users, dto, salt, hash, freshId, None).state;
            Keyed(after) &&
            SignIn(after, dto, None, compare, sign) == Success(sign(Claims(Some(freshId), Some(dto.username), None)))
  {
    var after := SignUp(users, dto, salt, hash, freshId, None).state;
    assert after[dto.username].password == hash(dto.password, salt);
    assert FindOneByUsername(after, dto.username, None) == Success(Some(after[dto.username]));
  }

  /** Signing up twice with one username fails the second time with a conflict, whatever
      the second password, roles or id. */
  lemma SignUpTwiceConflicts(users: UserTable, first: Credentials, second: Credentials,
                             salt: string, hash: (string, string) -> string,
                             id1: string, id2: string)
    requires Keyed(users)
    requires first.username == second.username
    requires SignUp(users, first, salt, hash, id1, None).outcome.Success?
    ensures var after := SignUp(users, first, salt, hash, id1, None).state;
            Keyed(after) &&
            SignUp(after, second, salt, hash, id2, None).outcome == Failure(HttpError(Conflict, UsernameTaken))
  {
  }

  /** `signIn` as evidently intended: the same decision, with the user's roles in the
      payload so that the roles guard can admit the token. */
  function SignInWithRoles(users: UserTable, dto: Credentials, fault: Option<DbError>,
                           compare: (string, string) -> bool, sign: Claims -> string): (r: Result<string, HttpError>)
    requires Keyed(users)
    ensures r.Success? <==> SignIn(users, dto, fault, compare, sign).Success?
    ensures r.Success? ==> exists u :: u in users.Values && u.username == dto.username
                                       && r.value == sign(Claims(Some(u.id), Some(dto.username), Some(u.roles)))
    ensures r.Failure? ==> r == SignIn(users, dto, fault, compare, sign)
  {
    match FindOneByUsername(users, dto.username, fault)
    case Failure(_) => Failure(Uncaught)
    case Success(user) =>
      if user.Some? && compare(dto.password, user.value.password) then
        Success(sign(Claims(Some(user.value.id), Some(dto.username), Some(user.value.roles))))
      else
        Failure(HttpError(Unauthorized, BadCredentials))
  }
}

=== FILE: comments_repository.dfy ===
/** `CommentsRepository` (src/comments/comments.repository.ts). */
module CommentsRepository {
  import opened Wrappers
  import opened Http

  /** A point in time as the store records it (milliseconds since the epoch). */
  type Instant = int

  datatype Comment = Comment(id: string, content: string, postId: string, authorId: string,
                             createdAt: Instant, updatedAt: Instant)

  /** The comment table, indexed by id. */
  type CommentTable = map<string, Comment>

  predicate Keyed(comments: CommentTable) {
    forall id | id in comments :: comments[id].id == id
  }

  /** The body of `createComment`; `authorId` is optional in the DTO. */
  datatype NewComment = NewComment(content: string, postId: string, authorId: Option<string>)

  /** What the repository hands out for a comment. */
  datatype CommentDto = CommentDto(id: string, content: string, postId: string, authorId: string,
                                   createdAt: Instant, updatedAt: Instant)

  const CreateFailed := "Failed to create comment"
  const RetrieveFailed := "Failed to retrieve comment"

  /** The message of the not-found exception for a comment id. */
  function CommentNotFound(id: string): string {
    "Comment with ID \"" + id + "\" not found"
  }

  /** `toCommentDto`: the comment's fields, unchanged. */
  function ToCommentDto(c: Comment): (d: CommentDto)
    ensures d.id == c.id && d.content == c.content && d.postId == c.postId && d.authorId == c.authorId
    ensures d.createdAt == c.createdAt && d.updatedAt == c.updatedAt
  {
    CommentDto(c.id, c.content, c.postId, c.authorId, c.createdAt, c.updatedAt)
  }

  /** No two comments share a DTO. */
  lemma DtoDeterminesComment(a: Comment, b: Comment)
    requires ToCommentDto(a) == ToCommentDto(b)
    ensures a == b
  {
  }

  /** `createComment`: stores exactly the content, post and author given, under the id
      (`freshId`) and timestamps (`now`) the store assigns. Any failure of the store
      (`fault`, an id in use, a post or author that does not exist, a missing author)
      becomes one internal error. */
  function CreateComment(comments: CommentTable, postIds: set<string>, userIds: set<string>,
                         dto: NewComment, freshId: string, now: Instant,
                         fault: Option<DbError>): (r: Step<CommentTable, Comment>)
    requires Keyed(comments)
    ensures Keyed(r.state)
    ensures r.outcome.Failure? ==> r.state == comments && r.outcome.error == HttpError(InternalServerError, CreateFailed)
    ensures r.outcome.Success? <==>
              fault.None? && freshId !in comments && dto.postId in postIds
              && dto.authorId.Some? && dto.authorId.value in userIds
    ensures r.outcome.Success? ==>
              && var c := r.outcome.value;
              && c.id == freshId && c.content == dto.content && c.postId == dto.postId
              && Some(c.authorId) == dto.authorId
              && r.state == comments[freshId := c]
  {
    if fault.Some? || freshId in comments || dto.postId !in postIds
       || dto.authorId.None? || dto.authorId.value !in userIds then
      Step(comments, Failure(HttpError(InternalServerError, CreateFailed)))
    else
      var c := Comment(freshId, dto.content, dto.postId, dto.authorId.value, now, now);
      Step(comments[freshId := c], Success(c))
  }

  /** `getCommentsByPost`: the DTOs of the comments on one post. A store failure is not
      caught. */
  function GetCommentsByPost(comments: CommentTable, postId: string, fault: Option<DbError>)
    : (r: Result<set<CommentDto>, HttpError>)
    ensures fault.Some? <==> r == Failure(Uncaught)
    ensures fault.None? ==> r.Success?
    ensures r.Success? ==> forall d | d in r.value :: d.postId == postId
    ensures r.Success? ==> forall d | d in r.value :: exists id :: id in comments && ToCommentDto(comments[id]) == d
    ensures r.Success? ==> forall id | id in comments && comments[id].postId == postId ::
                             ToCommentDto(comments[id]) in r.value
  {
    if fault.Some? then Failure(Uncaught)
    else Success(set id | id in comments && comments[id].postId == postId :: ToCommentDto(comments[id]))
  }

  /** The `try` block of `findCommentById`: the stored comment, or what it throws. */
  function LookupComment(comments: CommentTable, id: string, fault: Option<DbError>): Result<Comment, Thrown> {
    if fault.Some? then Failure(Db(fault.value))
    else if id in comments then Success(comments[id])
    else Failure(Http(HttpError(NotFound, CommentNotFound(id))))
  }

  /** The `catch` block of `findCommentById`: it recognises its own not-found by the message. */
  function FindCommentError(id: string, e: Thrown): HttpError {
    if e.Message() == CommentNotFound(id) then HttpError(NotFound, CommentNotFound(id))
    else HttpError(InternalServerError, RetrieveFailed)
  }

  /** `findCommentById`. */
  function FindCommentById(comments: CommentTable, id: string, fault: Option<DbError>)
    : (r: Result<Comment, HttpError>)
    ensures fault.None? ==> (r.Success? <==> id in comments)
    ensures r.Success? ==> id in comments && r.value == comments[id]
    ensures fault.None? && id !in comments ==> r == Failure(HttpError(NotFound, CommentNotFound(id)))
    ensures fault.Some? ==> r.Failure?
    ensures fault.Some? && r.Failure? ==>
              (r.error.status == NotFound <==> fault.value.message == CommentNotFound(id))
    ensures r.Failure? ==> r.error in {HttpError(NotFound, CommentNotFound(id)), HttpError(InternalServerError, RetrieveFailed)}
  {
    match LookupComment(comments, id, fault)
    case Success(c) => Success(c)
    case Failure(e) => Failure(FindCommentError(id, e))
  }

  /** `deleteComment`: looks the comment up first (so a missing id fails with not-found
      before any write), then removes it and returns its DTO. `lookupFault` and
      `deleteFault` are failures of the two store calls; the second is rethrown. */
  function DeleteComment(comments: CommentTable, id: string, lookupFault: Option<DbError>,
                         deleteFault: Option<DbError>): (r: Step<CommentTable, CommentDto>)
    requires Keyed(comments)
    ensures Keyed(r.state)
    ensures r.outcome.Failure? ==> r.state == comments
    ensures lookupFault.None? && id !in comments ==>
              r == Step(comments, Failure(HttpError(NotFound, CommentNotFound(id))))
    ensures lookupFault.Some? ==>
              r.outcome.Failure? && r.outcome.error == FindCommentById(comments, id, lookupFault).error
    ensures r.outcome.Success? ==>
              && id in comments
              && r.state.Keys == comments.Keys - {id}
              && (forall other | other in r.state :: r.state[other] == comments[other])
              && r.outcome.value == ToCommentDto(comments[id])
    ensures lookupFault.None? && id in comments && deleteFault.Some? ==> r == Step(comments, Failure(Uncaught))
    ensures lookupFault.None? && deleteFault.None? && id in comments ==> r.outcome.Success?
  {
    match FindCommentById(comments, id, lookupFault)
    case Failure(e) => Step(comments, Failure(e))
    case Success(c) =>
      if deleteFault.Some? then Step(comments, Failure(Uncaught))
      else Step(comments - {id}, Success(ToCommentDto(c)))
  }
}

=== FILE: get_user.dfy ===
/** The `GetUser` parameter decorator (src/auth/get-user.decorator.ts): the caller's
    identity, read from a verified bearer token in the `authorization` header. */
module GetUserDecorator {
  import opened Wrappers
  import opened Http
  import opened Jwt
  import Text

  const BearerPrefix := "Bearer "
  const NoToken := "No token provided"
  const InvalidToken := "Invalid or expired token"

  /** `extractTokenFromRequest`: for a header starting with `Bearer `, its second
      space-separated field (possibly empty); otherwise null. */
  function ExtractToken(authorization: Option<string>): (r: Option<string>)
    ensures r.Some? <==> authorization.Some? && Text.StartsWith(authorization.value, BearerPrefix)
    ensures r.Some? ==> ' ' !in r.value
    ensures r.Some? ==> Text.StartsWith(authorization.value[|BearerPrefix|..], r.value)
    ensures r.Some? ==> var rest := authorization.value[|BearerPrefix| + |r.value|..];
                        rest == [] || rest[0] == ' '
  {
    if authorization.Some? && authorization.value != [] && Text.StartsWith(authorization.value, BearerPrefix) then
      var header := authorization.value;
      var after := header[|BearerPrefix|..];
      BearerSecondField(header);
      Text.SplitFields(header, ' ');
      FirstFieldIsPrefix(after, ' ');
      Some(Text.Split(header, ' ')[1])
    else
      None
  }

  /** After the `Bearer ` prefix, the second field of the header is the first field of the rest. */
  lemma BearerSecondField(header: string)
    requires Text.StartsWith(header, BearerPrefix)
    ensures |Text.Split(header, ' ')| >= 2
    ensures Text.Split(header, ' ')[1] == Text.Split(header[|BearerPrefix|..], ' ')[0]
  {
    var after := header[|BearerPrefix|..];
    assert header == "Bearer" + ([' '] + after);
    Text.SplitPrefix("Bearer", [' '] + after, ' ');
    assert ([' '] + after)[1..] == after;
    assert Text.Split([' '] + after, ' ') == [""] + Text.Split(after, ' ');
  }

  /** The first field of a split is the longest separator-free prefix. */
  lemma {:induction false} FirstFieldIsPrefix(s: string, sep: char)
    ensures Text.StartsWith(s, Text.Split(s, sep)[0])
    ensures var n := |Text.Split(s, sep)[0]|; n == |s| || s[n] == sep
    decreases |s|
  {
    if |s| > 0 && s[0] != sep {
      FirstFieldIsPrefix(s[1..], sep);
    }
  }

  /** The decorator's factory: the verified claims (what it assigns to `req.user` and
      returns), or the `BadRequestException` it throws. */
  function GetUser(authorization: Option<string>, verify: string -> VerifyOutcome): (r: Result<Claims, HttpError>)
    ensures r.Failure? ==> r.error.status == BadRequest
    ensures r.Failure? ==> r.error.message in {NoToken, InvalidToken}
    ensures ExtractToken(authorization) in {None, Some("")} <==> r == Failure(HttpError(BadRequest, NoToken))
    ensures r.Success? ==> exists t :: ExtractToken(authorization) == Some(t) && t != []
                                       && verify(t) == Verified(r.value)
    ensures (exists t, c :: ExtractToken(authorization) == Some(t) && t != [] && verify(t) == Verified(c))
            ==> r.Success?
  {
    match ExtractToken(authorization)
    case None => Failure(HttpError(BadRequest, NoToken))
    case Some(token) =>
      if token == [] then Failure(HttpError(BadRequest, NoToken))
      else
        match verify(token)
        case Verified(c) => Success(c)
        case Rejected(_) => Failure(HttpError(BadRequest, InvalidToken))
  }

  /** Two spaces after `Bearer` leave an empty second field: the request is refused as
      carrying no token, and the verifier is not consulted. */
  lemma DoubleSpaceIsNoToken(rest: string, verify: string -> VerifyOutcome)
    ensures GetUser(Some("Bearer  " + rest), verify) == Failure(HttpError(BadRequest, NoToken))
  {
    var header := "Bearer  " + rest;
    assert Text.StartsWith(header, BearerPrefix);
    var after := header[|BearerPrefix|..];
    assert after == [' '] + rest;
    BearerSecondField(header);
    assert after[1..] == rest;
    assert Text.Split(after, ' ') == [""] + Text.Split(rest, ' ');
    assert ExtractToken(Some(header)) == Some("");
  }

  /** A header `Bearer <token>` with a compact token yields exactly what the verifier says
      about that token. */
  lemma CompactHeaderVerified(token: string, verify: string -> VerifyOutcome)
    requires IsCompact(token)
    ensures verify(token).Verified? ==> GetUser(Some(BearerPrefix + token), verify) == Success(verify(token).claims)
    ensures verify(token).Rejected? ==> GetUser(Some(BearerPrefix + token), verify) == Failure(HttpError(BadRequest, InvalidToken))
  {
    var header := BearerPrefix + token;
    CompactIsBare(token);
    assert header == "Bearer" + [' '] + token;
    Text.SplitTwo("Bearer", token, ' ');
    assert Text.StartsWith(header, BearerPrefix);
    assert ExtractToken(Some(header)) == Some(token);
  }
}

=== FILE: http.dfy ===
/** The HTTP exceptions the handlers throw (`@nestjs/common`) and the values a `catch` block sees. */
module Http {
  import opened Wrappers

  /** The exception classes used: 400, 401, 404, 409 and 500. */
  datatype Status = BadRequest | Unauthorized | NotFound | Conflict | InternalServerError

  /** An `HttpException` subclass together with the message it was built with. */
  datatype HttpError = HttpError(status: Status, message: string)

  /** The message of an `InternalServerErrorException` built without arguments. */
  const DefaultInternalMessage := "Internal Server Error"

  /** What the framework answers when a handler rejects with something that is not an `HttpException`. */
  const Uncaught := HttpError(InternalServerError, "Internal server error")

  /** An error raised by the data store (Prisma). `code` is present exactly when the
      error is a `PrismaClientKnownRequestError`, and then holds its `Pxxxx` code. */
  datatype DbError = DbError(code: Option<string>, message: string)

  /** The Prisma code for a unique-constraint violation. */
  const UniqueViolation := "P2002"
  /** The Prisma code for "record required by the operation was not found". */
  const RecordNotFound := "P2025"

  /** Anything a repository's `try` block can throw: the store's own error, or an
      `HttpException` the block raised itself. */
  datatype Thrown = Db(db: DbError) | Http(http: HttpError) {
    /** `error?.message` as seen by a `catch` block. */
    function Message(): string {
      match this
      case Db(e) => e.message
      case Http(e) => e.message
    }

    /** `error instanceof PrismaClientKnownRequestError && error.code === code`. */
    predicate IsKnownRequest(code: string) {
      Db? && db.code == Some(code)
    }
  }

  /** The outcome of a call that changes a table: the table afterwards and what the call resolved to. */
  datatype Step<S, T> = Step(state: S, outcome: Result<T, HttpError>)
}

=== FILE: jwt.dfy ===
/** What the JSON Web Token library is to the model: claims, the errors `verify` throws,
    and the shape of the tokens `sign` produces. Signing and verification themselves
    are parameters of the operations that use them. */
module Jwt {
  import opened Wrappers
  import opened Roles
  import Text

  /** A token's payload as the application reads it (`iat` and `exp` are not modelled). */
  datatype Claims = Claims(id: Option<string>, username: Option<string>, roles: Option<seq<Role>>)

  /** A thrown JavaScript error: its `name` and its `message`. */
  datatype JsError = JsError(name: string, message: string)

  /** The `name` of the error `verify` throws for a token past its expiry. */
  const TokenExpiredError := "TokenExpiredError"
  /** The `name` of the error `verify` throws for a bad signature or malformed token. */
  const JsonWebTokenError := "JsonWebTokenError"

  /** What one call of `verify(token)` does: return the claims, or throw. */
  datatype VerifyOutcome = Verified(claims: Claims) | Rejected(error: JsError)

  /** A verifier that accepts every token the signer produced, with the signed claims. */
  ghost predicate Verifies(verify: string -> VerifyOutcome, sign: Claims -> string) {
    forall c :: verify(sign(c)) == Verified(c)
  }

  /** The characters of a compact-serialised token: base64url segments joined by dots. */
  predicate IsTokenChar(c: char) {
    ('A' <= c <= 'Z') || ('a' <= c <= 'z') || ('0' <= c <= '9') || c == '-' || c == '_' || c == '.'
  }

  /** A non-empty compact-serialised token. */
  predicate IsCompact(t: string) {
    t != [] && forall i | 0 <= i < |t| :: IsTokenChar(t[i])
  }

  /** A compact token holds no space and trims to itself. */
  lemma CompactIsBare(t: string)
    requires IsCompact(t)
    ensures ' ' !in t
    ensures Text.Trim(t) == t
  {
    assert !Text.IsWhitespace(t[0]) && !Text.IsWhitespace(t[|t| - 1]);
    Text.TrimKeepsTrimmed(t);
  }
}

=== FILE: posts_controller.dfy ===
/** `PostsController` (src/posts/posts.controller.ts): the handlers that add behaviour to
    the repository calls they make. The caller is the claims `GetUser` produced. */
module PostsController {
  import opened Wrappers
  import opened Http
  import opened Roles
  import opened Jwt
  import opened PostsRepository
  import opened RolesGuard

  const NotYourPost := "You can only edit your own posts"

  /** The roles the delete route declares with `@Roles`. */
  const DeleteRoles: seq<Role> := [SuperAdmin, Admin]

  /** The `createPost` handler: the body is passed on with `authorId` replaced by the caller's
      id, whatever the body said. */
  function CreatePostRoute(posts: PostTable, userIds: set<string>, body: NewPost, caller: Claims,
                           freshId: string, fault: Option<DbError>): (r: Step<PostTable, Post>)
    requires Keyed(posts)
    ensures Keyed(r.state)
    ensures r.outcome.Failure? ==> r.state == posts && r.outcome.error == HttpError(InternalServerError, CreateFailed)
    ensures r.outcome.Success? <==> fault.None? && freshId !in posts && caller.id.Some? && caller.id.value in userIds
    ensures r.outcome.Success? ==> r.state == posts[freshId := r.outcome.value] && r.outcome.value.id == freshId
    ensures r.outcome.Success? ==> caller.id.Some? && r.outcome.value.authorId == caller.id.value
    ensures r.outcome.Success? ==> r.outcome.value.title == body.title && r.outcome.value.content == body.content
    ensures caller.id.None? ==> r == Step(posts, Failure(HttpError(InternalServerError, CreateFailed)))
  {
    CreatePost(posts, userIds, body.(authorId := caller.id), freshId, fault)
  }

  /** The author a client writes into the body has no effect. */
  lemma BodyAuthorIgnored(posts: PostTable, userIds: set<string>, b1: NewPost, b2: NewPost,
                          caller: Claims, freshId: string, fault: Option<DbError>)
    requires Keyed(posts)
    requires b1.title == b2.title && b1.content == b2.content
    ensures CreatePostRoute(posts, userIds, b1, caller, freshId, fault)
            == CreatePostRoute(posts, userIds, b2, caller, freshId, fault)
  {
    assert b1.(authorId := caller.id) == b2.(authorId := caller.id);
  }

  /** The `updatePost` handler: looks the post up, refuses a caller who is not its author,
      and otherwise forwards the body unchanged to the repository's `updatePost`.
      `ownerLookupFault` is a failure of the handler's own lookup. */
  function UpdatePostRoute(posts: PostTable, userIds: set<string>, id: string, changes: PostChanges,
                           caller: Claims, ownerLookupFault: Option<DbError>,
                           lookupFault: Option<DbError>, updateFault: Option<DbError>): (r: Step<PostTable, Post>)
    requires Keyed(posts)
    ensures Keyed(r.state)
    ensures r.outcome.Failure? ==> r.state == posts
    ensures FindPostById(posts, id, ownerLookupFault).Failure? ==>
              r == Step(posts, Failure(FindPostById(posts, id, ownerLookupFault).error))
    ensures r.outcome.Success? ==> id in posts && caller.id == Some(posts[id].authorId)
    ensures ownerLookupFault.None? && id !in posts ==>
              r.outcome == Failure(HttpError(InternalServerError, RetrieveFailed))
    ensures ownerLookupFault.None? && id in posts && caller.id != Some(posts[id].authorId) ==>
              r.outcome == Failure(HttpError(Unauthorized, NotYourPost))
    ensures r.outcome.Success? ==>
              && r.state == posts[id := r.outcome.value]
              && r.outcome.value == Apply(posts[id], changes)
    ensures ownerLookupFault.None? && id in posts && caller.id == Some(posts[id].authorId) ==>
              r == UpdatePost(posts, userIds, id, changes, lookupFault, updateFault)
    ensures (ownerLookupFault.None? && lookupFault.None? && updateFault.None? &&
             id in posts && caller.id == Some(posts[id].authorId) &&
             (changes.authorId.None? || changes.authorId.value in userIds)) ==> r.outcome.Success?
  {
    match FindPostById(posts, id, ownerLookupFault)
    case Failure(e) => Step(posts, Failure(e))
    case Success(post) =>
      if Some(post.authorId) != caller.id then
        Step(posts, Failure(HttpError(Unauthorized, NotYourPost)))
      else
        UpdatePost(posts, userIds, id, changes, lookupFault, updateFault)
  }

  /** Because the body is forwarded unchanged, an author can hand a post to another user,
      and is then refused when editing it again. */
  lemma AuthorCanGiveAwayPost(posts: PostTable, userIds: set<string>, id: string,
                                 caller: Claims, other: string, again: PostChanges)
    requires Keyed(posts)
    requires id in posts && caller.id == Some(posts[id].authorId)
    requires other in userIds && Some(other) != caller.id
    ensures var first := UpdatePostRoute(posts, userIds, id, PostChanges(None, None, Some(other)),
                                         caller, None, None, None);
            && first.outcome.Success?
            && first.state[id].authorId == other
            && UpdatePostRoute(first.state, userIds, id, again, caller, None, None, None).outcome
               == Failure(HttpError(Unauthorized, NotYourPost))
  {
    var first := UpdatePostRoute(posts, userIds, id, PostChanges(None, None, Some(other)),
                                 caller, None, None, None);
    assert FindPostById(posts, id, None) == Success(posts[id]);
    assert first.outcome.Success?;
    assert first.state[id].authorId == other;
  }

  /** A role whose value is one of the delete route's required values. */
  predicate MayDelete(r: Role) {
    Value(r) == "Super_Admin" || Value(r) == "Admin"
  }

  lemma SharesDeleteRoles(held: seq<Role>)
    ensures Shares(DeleteRoles, held) <==> exists j :: 0 <= j < |held| && MayDelete(held[j])
  {
    if exists j :: 0 <= j < |held| && MayDelete(held[j]) {
      var j :| 0 <= j < |held| && MayDelete(held[j]);
      if Value(held[j]) == "Super_Admin" {
        assert Value(DeleteRoles[0]) == Value(held[j]);
      } else {
        assert Value(DeleteRoles[1]) == Value(held[j]);
      }
    }
    if Shares(DeleteRoles, held) {
      var i, j :| 0 <= i < |DeleteRoles| && 0 <= j < |held| && Value(DeleteRoles[i]) == Value(held[j]);
      assert Value(DeleteRoles[i]) in {"Super_Admin", "Admin"};
    }
  }

  /** The delete route admits a verified token exactly when its roles include `Super_Admin`
      or `Admin`. */
  lemma DeleteRouteGuard(rawHeaders: Option<seq<string>>, verify: string -> VerifyOutcome,
                         token: string, c: Claims)
    requires GetBearerToken(rawHeaders) == Some(token)
    requires verify(token) == Verified(c)
    ensures CanActivate(Some(DeleteRoles), rawHeaders, verify)
            == Success(c.roles.Some? && exists j :: 0 <= j < |c.roles.value| && MayDelete(c.roles.value[j]))
  {
    VerifiedTokenDecides(DeleteRoles, rawHeaders, verify, token, c);
    if c.roles.Some? {
      SharesDeleteRoles(c.roles.value);
    }
  }
}

=== FILE: posts_repository.dfy ===
/** `PostsRepository` (src/posts/posts.repository.ts). */
module PostsRepository {
  import opened Wrappers
  import opened Http

  datatype Post = Post(id: string, title: string, content: string, authorId: string)

  /** The post table, indexed by id. */
  type PostTable = map<string, Post>

  predicate Keyed(posts: PostTable) {
    forall id | id in posts :: posts[id].id == id
  }

  /** The body of `createPost`; `authorId` is absent when the caller's token had no id. */
  datatype NewPost = NewPost(title: string, content: string, authorId: Option<string>)

  /** The body of `updatePost`: every field optional, absent ones left as they are. */
  datatype PostChanges = PostChanges(title: Option<string>, content: Option<string>, authorId: Option<string>)

  const CreateFailed := "Failed to create post"
  const RetrieveAllFailed := "Failed to retrieve posts"
  const RetrieveFailed := "Failed to retrieve post"

  /** The message of the not-found exception for a post id. */
  function PostNotFound(id: string): string {
    "Post with ID \"" + id + "\" not found"
  }

  /** `createPost`: stores the post under `freshId` (the `uuidv4()` value), connected to its
      author. Any failure of the store (`fault`, an id already in use, or an author id that
      is absent or matches no user) becomes one internal error. */
  function CreatePost(posts: PostTable, userIds: set<string>, dto: NewPost, freshId: string,
                      fault: Option<DbError>): (r: Step<PostTable, Post>)
    requires Keyed(posts)
    ensures Keyed(r.state)
    ensures r.outcome.Failure? ==> r.state == posts && r.outcome.error == HttpError(InternalServerError, CreateFailed)
    ensures r.outcome.Success? <==>
              fault.None? && freshId !in posts && dto.authorId.Some? && dto.authorId.value in userIds
    ensures r.outcome.Success? ==>
              && r.outcome.value == Post(freshId, dto.title, dto.content, dto.authorId.value)
              && r.state.Keys == posts.Keys + {freshId}
              && r.state[freshId] == r.outcome.value
              && (forall id | id in posts :: r.state[id] == posts[id])
  {
    if fault.Some? || freshId in posts || dto.authorId.None? || dto.authorId.value !in userIds then
      Step(posts, Failure(HttpError(InternalServerError, CreateFailed)))
    else
      var post := Post(freshId, dto.title, dto.content, dto.authorId.value);
      Step(posts[freshId := post], Success(post))
  }

  /** `findAllPosts`: every stored post. */
  function FindAllPosts(posts: PostTable, fault: Option<DbError>): (r: Result<set<Post>, HttpError>)
    ensures fault.Some? <==> r == Failure(HttpError(InternalServerError, RetrieveAllFailed))
    ensures fault.None? ==> r.Success?
    ensures r.Success? ==> forall id | id in posts :: posts[id] in r.value
    ensures r.Success? ==> forall p | p in r.value :: exists id :: id in posts && posts[id] == p
  {
    if fault.Some? then Failure(HttpError(InternalServerError, RetrieveAllFailed))
    else Success(posts.Values)
  }

  /** The `try` block of `findPostById`: the stored post, or what it throws. */
  function LookupPost(posts: PostTable, id: string, fault: Option<DbError>): Result<Post, Thrown> {
    if fault.Some? then Failure(Db(fault.value))
    else if id in posts then Success(posts[id])
    else Failure(Http(HttpError(NotFound, PostNotFound(id))))
  }

  /** The `catch` block of `findPostById`: only a P2025 store error becomes a not-found; the
      not-found exception the block raised itself is no store error and becomes internal. */
  function FindPostError(id: string, e: Thrown): HttpError {
    if e.IsKnownRequest(RecordNotFound) then HttpError(NotFound, PostNotFound(id))
    else HttpError(InternalServerError, RetrieveFailed)
  }

  /** `findPostById`. */
  function FindPostById(posts: PostTable, id: string, fault: Option<DbError>): (r: Result<Post, HttpError>)
    ensures fault.None? && id in posts ==> r == Success(posts[id])
    ensures fault.None? && id !in posts ==> r == Failure(HttpError(InternalServerError, RetrieveFailed))
    ensures r.Success? ==> id in posts && r.value == posts[id]
    ensures fault.Some? ==> r.Failure?
    ensures r.Failure? ==> (r.error.status == NotFound <==> fault.Some? && fault.value.code == Some(RecordNotFound))
    ensures r.Failure? ==> r.error in {HttpError(NotFound, PostNotFound(id)), HttpError(InternalServerError, RetrieveFailed)}
  {
    match LookupPost(posts, id, fault)
    case Success(post) => Success(post)
    case Failure(e) => Failure(FindPostError(id, e))
  }

  /** The missing-post case as written: the not-found exception raised inside the `try`
      is swallowed by the `catch` and the caller sees an internal error instead. */
  lemma MissingPostIsInternal()
    ensures var r := FindPostById(map[], "1", None);
            r == Failure(HttpError(InternalServerError, RetrieveFailed)) && r.error.status != NotFound
  {
  }

  /** The `catch` block as evidently intended: the not-found exception raised in the `try`
      passes through, and store errors are classified as before. */
  function FindPostErrorCorrected(id: string, e: Thrown): HttpError {
    if e.Http? && e.http.status == NotFound then e.http else FindPostError(id, e)
  }

  /** `findPostById` with the corrected `catch`: a missing id is a not-found, and every
      other outcome is the one the code as written produces. */
  function FindPostByIdCorrected(posts: PostTable, id: string, fault: Option<DbError>)
    : (r: Result<Post, HttpError>)
    ensures fault.None? ==> (r.Success? <==> id in posts)
    ensures fault.None? && id !in posts ==> r == Failure(HttpError(NotFound, PostNotFound(id)))
    ensures fault.Some? || id in posts ==> r == FindPostById(posts, id, fault)
    ensures r.Failure? ==> (r.error.status == NotFound <==>
                              (fault.None? || fault.value.code == Some(RecordNotFound)))
  {
    match LookupPost(posts, id, fault)
    case Success(post) => Success(post)
    case Failure(e) => Failure(FindPostErrorCorrected(id, e))
  }

  /** A post with the given fields replaced. */
  function Apply(post: Post, changes: PostChanges): (p: Post)
    ensures p.id == post.id
    ensures p.title == changes.title.GetOr(post.title)
    ensures p.content == changes.content.GetOr(post.content)
    ensures p.authorId == changes.authorId.GetOr(post.authorId)
  {
    Post(post.id, changes.title.GetOr(post.title), changes.content.GetOr(post.content),
         changes.authorId.GetOr(post.authorId))
  }

  /** An empty body leaves a post as it is. */
  lemma ApplyNoChanges(post: Post)
    ensures Apply(post, PostChanges(None, None, None)) == post
  {
  }

  /** Sending the same body twice has the effect of sending it once. */
  lemma ApplyIdempotent(post: Post, changes: PostChanges)
    ensures Apply(Apply(post, changes), changes) == Apply(post, changes)
  {
  }

  /** Two bodies applied in turn act as one body in which the later fields win. */
  lemma ApplyThenApply(post: Post, first: PostChanges, second: PostChanges)
    ensures Apply(Apply(post, first), second)
            == Apply(post, PostChanges(if second.title.Some? then second.title else first.title,
                                       if second.content.Some? then second.content else first.content,
                                       if second.authorId.Some? then second.authorId else first.authorId))
  {
  }

  /** `updatePost`: looks the post up first (so a missing id fails before any write), then
      lets the store apply `changes`. `lookupFault` and `updateFault` are failures of the two
      store calls; the second is not caught, and neither is an author id matching no user. */
  function UpdatePost(posts: PostTable, userIds: set<string>, id: string, changes: PostChanges,
                      lookupFault: Option<DbError>, updateFault: Option<DbError>): (r: Step<PostTable, Post>)
    requires Keyed(posts)
    ensures Keyed(r.state)
    ensures r.outcome.Failure? ==> r.state == posts
    ensures id !in posts ==> r.outcome.Failure?
    ensures lookupFault.None? && id !in posts ==> r.outcome == Failure(HttpError(InternalServerError, RetrieveFailed))
    ensures lookupFault.Some? ==> r.outcome == Failure(FindPostById(posts, id, lookupFault).error)
    ensures changes.authorId.Some? && changes.authorId.value !in userIds ==> r.outcome.Failure?
    ensures lookupFault.None? && id in posts && updateFault.Some? ==> r.outcome == Failure(Uncaught)
    ensures (lookupFault.None? && updateFault.None? && id in posts &&
             (changes.authorId.None? || changes.authorId.value in userIds)) ==> r.outcome.Success?
    ensures r.outcome.Success? ==>
              && id in posts
              && r.state == posts[id := r.outcome.value]
              && r.outcome.value.id == id
              && r.outcome.value.title == changes.title.GetOr(posts[id].title)
              && r.outcome.value.content == changes.content.GetOr(posts[id].content)
              && r.outcome.value.authorId == changes.authorId.GetOr(posts[id].authorId)
  {
    match FindPostById(posts, id, lookupFault)
    case Failure(e) => Step(posts, Failure(e))
    case Success(post) =>
      if updateFault.Some? || (changes.authorId.Some? && changes.authorId.value !in userIds) then
        Step(posts, Failure(Uncaught))
      else
        var updated := Apply(post, changes);
        Step(posts[id := updated], Success(updated))
  }

  /** A successful update changes that one post and no other. */
  lemma UpdateTouchesOnlyItsPost(posts: PostTable, userIds: set<string>, id: string, changes: PostChanges,
                                 lookupFault: Option<DbError>, updateFault: Option<DbError>, other: string)
    requires Keyed(posts)
    requires UpdatePost(posts, userIds, id, changes, lookupFault, updateFault).outcome.Success?
    requires other != id
    ensures var after := UpdatePost(posts, userIds, id, changes, lookupFault, updateFault).state;
            after.Keys == posts.Keys && (other in posts ==> after[other] == posts[other])
  {
  }
}

=== FILE: roles.dfy ===
/** The `Role` enum and the array membership tests the guard performs on it. */
module Roles {
  import opened Wrappers

  /** The declared roles, plus any other string a token or the store may carry. */
  datatype Role = Agent | Admin | SuperAdmin | Unlisted(name: string)

  /** The string a role stands for: enum members compare by these values. */
  function Value(r: Role): string {
    match r
    case Agent => "Reviewer"
    case Admin => "Admin"
    case SuperAdmin => "Super_Admin"
    case Unlisted(name) => name
  }

  /** The role a new user gets when the sign-up body has none. The repository names it
      `Role.User`, a member the enum does not declare, so it has no string value of its own;
      the value `"User"` chosen here is arbitrary, and no property below depends on it beyond
      its being none of the declared three. */
  const DefaultRole: Role := Unlisted("User")

  /** `held.includes(role)`: a left-to-right scan comparing string values. */
  function Has(held: seq<Role>, role: Role): bool
  {
    |held| > 0 && (Value(held[0]) == Value(role) || Has(held[1..], role))
  }

  /** `required.some((role) => held?.includes(role))`; an absent `held` includes nothing. */
  function AnyHeld(required: seq<Role>, held: Option<seq<Role>>): bool
  {
    |required| > 0 && ((held.Some? && Has(held.value, required[0])) || AnyHeld(required[1..], held))
  }

  /** Some role of `required` has the same value as some role of `held`. */
  ghost predicate Shares(required: seq<Role>, held: seq<Role>) {
    exists i, j :: 0 <= i < |required| && 0 <= j < |held| && Value(required[i]) == Value(held[j])
  }

  lemma {:induction false} HasIffSomeEntry(held: seq<Role>, role: Role)
    ensures Has(held, role) <==> exists j :: 0 <= j < |held| && Value(held[j]) == Value(role)
    decreases |held|
  {
    if |held| > 0 {
      HasIffSomeEntry(held[1..], role);
      if exists j :: 0 <= j < |held| && Value(held[j]) == Value(role) {
        var j :| 0 <= j < |held| && Value(held[j]) == Value(role);
        if j > 0 { assert held[1..][j - 1] == held[j]; }
      }
      if Has(held[1..], role) {
        var j :| 0 <= j < |held[1..]| && Value(held[1..][j]) == Value(role);
        assert held[j + 1] == held[1..][j];
      }
    }
  }

  /** The guard's test is ANY-of: it holds exactly when the token carries a roles list
      sharing at least one value with the required list. */
  lemma {:induction false} AnyHeldIffShares(required: seq<Role>, held: Option<seq<Role>>)
    ensures AnyHeld(required, held) <==> held.Some? && Shares(required, held.value)
    decreases |required|
  {
    if |required| > 0 {
      AnyHeldIffShares(required[1..], held);
      if held.Some? {
        var hs := held.value;
        HasIffSomeEntry(hs, required[0]);
        if Shares(required, hs) {
          var i, j :| 0 <= i < |required| && 0 <= j < |hs| && Value(required[i]) == Value(hs[j]);
          if i > 0 { assert required[1..][i - 1] == required[i]; }
        }
        if Shares(required[1..], hs) {
          var i, j :| 0 <= i < |required[1..]| && 0 <= j < |hs| && Value(required[1..][i]) == Value(hs[j]);
          assert required[i + 1] == required[1..][i];
        }
        if Has(hs, required[0]) {
          var j :| 0 <= j < |hs| && Value(hs[j]) == Value(required[0]);
          assert Value(required[0]) == Value(hs[j]);
        }
      }
    }
  }

  /** An empty required list admits nobody, and an absent roles claim is admitted nowhere. */
  lemma NothingSharedWithEmpty(required: seq<Role>, held: Option<seq<Role>>)
    requires required == [] || held.None?
    ensures !AnyHeld(required, held)
  {
    AnyHeldIffShares(required, held);
  }
}

=== FILE: roles_guard.dfy ===
/** `RolesGuard` (src/auth/roles.guard.ts): decides whether a request may reach a
    handler that declares required roles. */
module RolesGuard {
  import opened Wrappers
  import opened Http
  import opened Roles
  import opened Jwt
  import Text

  /** The message of the `NotFoundException` the guard throws when no token is found. */
  const TokenAbsent := "Unauthorized, token absent in header."
  /** A second message the `catch` block treats as "not logged in". */
  const NoUserFound := "No user found"

  const NotLoggedIn := "You are not logged in."
  const ExpiredLogin := "Expired login token"
  const ContactAdmin := "Something went wrong. Please contact the admin"

  /** The token one raw header entry yields: the entry must contain `Bearer`, and its
      second space-separated field, trimmed, must be non-empty. */
  function EntryToken(item: string): (r: Option<string>)
    ensures r.Some? ==> Text.Includes(item, "Bearer")
    ensures r.Some? ==> r.value != [] && ' ' !in r.value
  {
    if Text.Includes(item, "Bearer") then
      match Text.SecondField(item, ' ')
      case Some(field) =>
        var token := Text.Trim(field);
        if token != [] then Some(token) else None
      case None => None
    else None
  }

  /** An entry yields a token exactly when it includes `Bearer` and has a second field that
      is not all whitespace; the token is that field with its whitespace ends cut off. */
  lemma EntryTokenMeaning(item: string)
    ensures var f := Text.SecondField(item, ' ');
            EntryToken(item).Some? <==>
              Text.Includes(item, "Bearer") && f.Some? && !Text.WhitespaceBetween(f.value, 0, |f.value|)
    ensures EntryToken(item).Some? ==>
              exists i :: Text.TrimmedAt(Text.SecondField(item, ' ').value, EntryToken(item).value, i)
    ensures EntryToken(item).Some? ==>
              var t := EntryToken(item).value; !Text.IsWhitespace(t[0]) && !Text.IsWhitespace(t[|t| - 1])
    ensures EntryToken(item).Some? ==> EntryToken(item).value == Text.Trim(Text.SecondField(item, ' ').value)
  {
    var f := Text.SecondField(item, ' ');
    if f.Some? {
      Text.TrimEmptyIffWhitespace(f.value);
    }
  }

  /** Entry `i` is the first entry of `items` that yields a token. */
  ghost predicate FirstTokenAt(items: seq<string>, i: int) {
    && 0 <= i < |items|
    && EntryToken(items[i]).Some?
    && forall j | 0 <= j < i :: EntryToken(items[j]).None?
  }

  /** The for-loop of `getBearerToken`: the token of the first entry that yields one. */
  function ScanHeaders(items: seq<string>): (r: Option<string>)
    ensures r.Some? ==> r.value != [] && ' ' !in r.value
  {
    if |items| == 0 then None
    else
      match EntryToken(items[0])
      case Some(token) => Some(token)
      case None => ScanHeaders(items[1..])
  }

  /** The scan returns the token of the first qualifying entry, and nothing when no entry
      qualifies. */
  lemma {:induction false} ScanFindsFirst(items: seq<string>)
    ensures ScanHeaders(items).Some? ==>
              exists i :: FirstTokenAt(items, i) && EntryToken(items[i]) == ScanHeaders(items)
    ensures ScanHeaders(items).None? <==> forall i | 0 <= i < |items| :: EntryToken(items[i]).None?
    decreases |items|
  {
    if |items| > 0 {
      if EntryToken(items[0]).Some? {
        assert FirstTokenAt(items, 0);
      } else {
        var tail := items[1..];
        ScanFindsFirst(tail);
        assert forall i | 1 <= i < |items| :: items[i] == tail[i - 1];
        if ScanHeaders(tail).Some? {
          var i :| FirstTokenAt(tail, i) && EntryToken(tail[i]) == ScanHeaders(tail);
          assert FirstTokenAt(items, i + 1);
        }
      }
    }
  }

  /** `getBearerToken(request?.rawHeaders)`; `None` for the list stands for a value that is
      not an array. */
  function GetBearerToken(rawHeaders: Option<seq<string>>): (r: Option<string>)
    ensures rawHeaders.None? ==> r.None?
    ensures r.Some? ==> r.value != [] && ' ' !in r.value
  {
    match rawHeaders
    case None => None
    case Some(items) => ScanHeaders(items)
  }

  /** The `catch` block: the exception the guard rethrows for an error raised while deciding. */
  function GuardError(e: JsError): (r: HttpError)
    ensures r.status == BadRequest || r == HttpError(InternalServerError, ContactAdmin)
    ensures e.message in {TokenAbsent, NoUserFound} ==> r == HttpError(BadRequest, NotLoggedIn)
    ensures e.message !in {TokenAbsent, NoUserFound} && e.name in {TokenExpiredError, JsonWebTokenError} ==>
              r == HttpError(BadRequest, ExpiredLogin)
    ensures r.status == BadRequest <==>
              e.message in {TokenAbsent, NoUserFound} || e.name in {TokenExpiredError, JsonWebTokenError}
  {
    if e.message == TokenAbsent || e.message == NoUserFound then
      HttpError(BadRequest, NotLoggedIn)
    else if e.name == TokenExpiredError then
      HttpError(BadRequest, ExpiredLogin)
    else if e.name == JsonWebTokenError then
      HttpError(BadRequest, ExpiredLogin)
    else
      HttpError(InternalServerError, ContactAdmin)
  }

  /** `canActivate`. `required` is the roles metadata of the handler (absent when none is
      declared), `rawHeaders` the request's raw header list, and `verify` what the JWT
      service's `verify` does with a token. `Success(b)` is the boolean returned,
      `Failure(e)` the exception thrown. */
  function CanActivate(required: Option<seq<Role>>, rawHeaders: Option<seq<string>>,
                       verify: string -> VerifyOutcome): (r: Result<bool, HttpError>)
    ensures required.None? ==> r == Success(true)
    ensures required.Some? && GetBearerToken(rawHeaders).None? ==>
              r == Failure(HttpError(BadRequest, NotLoggedIn))
    ensures r == Success(true) ==>
              required.None? ||
              exists token, c :: GetBearerToken(rawHeaders) == Some(token) && verify(token) == Verified(c)
                                 && c.roles.Some? && Shares(required.value, c.roles.value)
    ensures r.Failure? ==> r.error.status in {BadRequest, InternalServerError}
  {
    if required.None? then Success(true)
    else
      match GetBearerToken(rawHeaders)
      case None => Failure(GuardError(JsError("NotFoundException", TokenAbsent)))
      case Some(token) =>
        match verify(token)
        case Rejected(e) => Failure(GuardError(e))
        case Verified(c) =>
          var allowed := AnyHeld(required.value, c.roles);
          AnyHeldIffShares(required.value, c.roles);
          Success(allowed)
  }

  /** With a verified token the guard answers with a boolean, never an exception: it allows
      exactly when the token's roles share a value with the required ones (ANY, not ALL). */
  lemma VerifiedTokenDecides(required: seq<Role>, rawHeaders: Option<seq<string>>,
                             verify: string -> VerifyOutcome, token: string, c: Claims)
    requires GetBearerToken(rawHeaders) == Some(token)
    requires verify(token) == Verified(c)
    ensures CanActivate(Some(required), rawHeaders, verify)
            == Success(c.roles.Some? && Shares(required, c.roles.value))
  {
    AnyHeldIffShares(required, c.roles);
  }

  /** A declared but empty roles list does not mean "no restriction": nobody is allowed. */
  lemma EmptyRequirementAllowsNobody(rawHeaders: Option<seq<string>>, verify: string -> VerifyOutcome)
    ensures CanActivate(Some([]), rawHeaders, verify) != Success(true)
  {
  }

  /** A token without a `roles` claim is refused by every route that declares roles. */
  lemma RolelessTokenRefused(required: seq<Role>, rawHeaders: Option<seq<string>>,
                             verify: string -> VerifyOutcome, token: string, c: Claims)
    requires GetBearerToken(rawHeaders) == Some(token)
    requires verify(token) == Verified(c)
    requires c.roles.None?
    ensures CanActivate(Some(required), rawHeaders, verify) == Success(false)
  {
    NothingSharedWithEmpty(required, c.roles);
  }

  /** Without a bearer token the verifier is never consulted: any two verifiers give the same
      answer. */
  lemma NoTokenNoVerify(required: Option<seq<Role>>, rawHeaders: Option<seq<string>>,
                        v1: string -> VerifyOutcome, v2: string -> VerifyOutcome)
    requires GetBearerToken(rawHeaders).None?
    ensures CanActivate(required, rawHeaders, v1) == CanActivate(required, rawHeaders, v2)
  {
  }

  /** An expired token and a badly signed one are reported alike, as an expired login,
      unless their message is one of the two "not logged in" messages. */
  lemma RejectedTokenReported(required: seq<Role>, rawHeaders: Option<seq<string>>,
                              verify: string -> VerifyOutcome, token: string, e: JsError)
    requires GetBearerToken(rawHeaders) == Some(token)
    requires verify(token) == Rejected(e)
    requires e.message !in {TokenAbsent, NoUserFound}
    ensures e.name in {TokenExpiredError, JsonWebTokenError} ==>
              CanActivate(Some(required), rawHeaders, verify) == Failure(HttpError(BadRequest, ExpiredLogin))
    ensures e.name !in {TokenExpiredError, JsonWebTokenError} ==>
              CanActivate(Some(required), rawHeaders, verify) == Failure(HttpError(InternalServerError, ContactAdmin))
  {
  }

  /** A header entry `Bearer <token>` yields the token itself. */
  lemma BearerEntryYieldsToken(token: string)
    requires IsCompact(token)
    ensures EntryToken("Bearer " + token) == Some(token)
  {
    var item := "Bearer " + token;
    CompactIsBare(token);
    assert item == "Bearer" + [' '] + token;
    Text.SplitTwo("Bearer", token, ' ');
    assert Text.SecondField(item, ' ') == Some(token);
    assert Text.StartsWith(item, "Bearer");
    Text.StartsWithIncludes(item, "Bearer");
  }
}

=== FILE: text.dfy ===
/** The JavaScript string operations the request parsing relies on:
    `includes`, `startsWith`, `split(' ')` and `trim`. */
module Text {
  import opened Wrappers

  /** The code points `String.prototype.trim` removes: the ECMAScript WhiteSpace
      (tab, vertical tab, form feed, the byte-order mark and the space separators)
      and LineTerminator (LF, CR, line and paragraph separator) classes. */
  const Whitespace: set<char> := {
    '\t', '\n', '\U{B}', '\U{C}', '\r', ' ', '\U{A0}', '\U{1680}',
    '\U{2000}', '\U{2001}', '\U{2002}', '\U{2003}', '\U{2004}', '\U{2005}',
    '\U{2006}', '\U{2007}', '\U{2008}', '\U{2009}', '\U{200A}',
    '\U{2028}', '\U{2029}', '\U{202F}', '\U{205F}', '\U{3000}', '\U{FEFF}'
  }

  predicate IsWhitespace(c: char) {
    c in Whitespace
  }

  /** `s.startsWith(prefix)`. */
  predicate StartsWith(s: string, prefix: string) {
    |prefix| <= |s| && s[..|prefix|] == prefix
  }

  /** `sub` occurs in `s` at index `i`. */
  ghost predicate OccursAt(s: string, sub: string, i: int) {
    0 <= i && i + |sub| <= |s| && s[i..i + |sub|] == sub
  }

  /** `s.includes(sub)`: tries every start position from the left. */
  function Includes(s: string, sub: string): bool
    decreases |s|
  {
    StartsWith(s, sub) || (|s| > 0 && Includes(s[1..], sub))
  }

  /** An occurrence at any index is found by the scan. */
  lemma {:induction false} OccursIncludes(s: string, sub: string, i: int)
    requires OccursAt(s, sub, i)
    ensures Includes(s, sub)
    decreases i
  {
    if i == 0 {
      assert StartsWith(s, sub);
    } else {
      assert s[1..][i - 1..i - 1 + |sub|] == s[i..i + |sub|];
      OccursIncludes(s[1..], sub, i - 1);
    }
  }

  /** A string that lacks the first character of `sub` does not include `sub`. */
  lemma {:induction false} MissingFirstCharExcludes(s: string, sub: string)
    requires |sub| > 0 && sub[0] !in s
    ensures !Includes(s, sub)
    decreases |s|
  {
    if |s| > 0 {
      assert forall c | c in s[1..] :: c in s;
      MissingFirstCharExcludes(s[1..], sub);
    }
  }

  /** The scan finds `sub` exactly when it occurs somewhere in `s`. */
  lemma {:induction false} IncludesIffOccurs(s: string, sub: string)
    ensures Includes(s, sub) <==> exists i :: OccursAt(s, sub, i)
    decreases |s|
  {
    if exists i :: OccursAt(s, sub, i) {
      var i :| OccursAt(s, sub, i);
      OccursIncludes(s, sub, i);
    }
    if Includes(s, sub) {
      if StartsWith(s, sub) {
        assert OccursAt(s, sub, 0);
      } else {
        IncludesIffOccurs(s[1..], sub);
        var i :| OccursAt(s[1..], sub, i);
        assert s[i + 1..i + 1 + |sub|] == s[1..][i..i + |sub|];
        assert OccursAt(s, sub, i + 1);
      }
    }
  }

  /** A string that starts with `sub` contains it. */
  lemma StartsWithIncludes(s: string, sub: string)
    requires StartsWith(s, sub)
    ensures Includes(s, sub)
  {
  }

  /** `s.split(sep)` for a one-character separator: the maximal runs between separators,
      including empty runs at either end and between adjacent separators. */
  function Split(s: string, sep: char): (fields: seq<string>)
    ensures |fields| >= 1
    decreases |s|
  {
    if |s| == 0 then [""]
    else
      var rest := Split(s[1..], sep);
      if s[0] == sep then [""] + rest
      else [[s[0]] + rest[0]] + rest[1..]
  }

  /** No field holds the separator, and there is more than one field exactly when the
      string holds the separator. */
  lemma {:induction false} SplitFields(s: string, sep: char)
    ensures forall i | 0 <= i < |Split(s, sep)| :: sep !in Split(s, sep)[i]
    ensures |Split(s, sep)| == 1 <==> sep !in s
    decreases |s|
  {
    if |s| > 0 {
      SplitFields(s[1..], sep);
      var rest := Split(s[1..], sep);
      assert s == [s[0]] + s[1..];
      if s[0] == sep {
        assert Split(s, sep) == [""] + rest;
      } else {
        var fields := [[s[0]] + rest[0]] + rest[1..];
        assert Split(s, sep) == fields;
        assert forall i | 1 <= i < |fields| :: fields[i] == rest[i];
      }
    }
  }

  /** `fields.join(sep)`: the partner of `Split`. */
  function Join(fields: seq<string>, sep: char): string
  {
    if |fields| == 0 then ""
    else if |fields| == 1 then fields[0]
    else fields[0] + [sep] + Join(fields[1..], sep)
  }

  /** Splitting loses nothing: joining the fields back gives the original string. */
  lemma {:induction false} JoinSplit(s: string, sep: char)
    ensures Join(Split(s, sep), sep) == s
    decreases |s|
  {
    if |s| > 0 {
      JoinSplit(s[1..], sep);
      var rest := Split(s[1..], sep);
      if s[0] == sep {
        assert Split(s, sep) == [""] + rest;
        JoinAfterSeparator(s, rest, sep);
      } else {
        assert Split(s, sep) == [[s[0]] + rest[0]] + rest[1..];
        JoinAfterChar(s, rest, sep);
      }
    }
  }

  /** The step of `JoinSplit` for a string that starts with the separator. */
  lemma JoinAfterSeparator(s: string, rest: seq<string>, sep: char)
    requires |s| > 0 && s[0] == sep && |rest| >= 1 && Join(rest, sep) == s[1..]
    ensures Join([""] + rest, sep) == s
  {
    assert ([""] + rest)[1..] == rest;
    assert s == [sep] + s[1..];
  }

  /** The step of `JoinSplit` for a string that starts with another character. */
  lemma JoinAfterChar(s: string, rest: seq<string>, sep: char)
    requires |s| > 0 && |rest| >= 1 && Join(rest, sep) == s[1..]
    ensures Join([[s[0]] + rest[0]] + rest[1..], sep) == s
  {
    var fields := [[s[0]] + rest[0]] + rest[1..];
    assert s == [s[0]] + s[1..];
    if |rest| > 1 {
      var tail := Join(rest[1..], sep);
      assert fields[1..] == rest[1..];
      assert Join(fields, sep) == ([s[0]] + rest[0]) + [sep] + tail;
      assert ([s[0]] + rest[0]) + [sep] + tail == [s[0]] + (rest[0] + [sep] + tail);
    }
  }

  /** A separator-free prefix is glued to the first field of what follows it. */
  lemma {:induction false} SplitPrefix(a: string, rest: string, sep: char)
    requires sep !in a
    ensures Split(a + rest, sep) == [a + Split(rest, sep)[0]] + Split(rest, sep)[1..]
    decreases |a|
  {
    if |a| > 0 {
      SplitPrefix(a[1..], rest, sep);
      assert (a + rest)[1..] == a[1..] + rest;
      assert [a[0]] + (a[1..] + Split(rest, sep)[0]) == a + Split(rest, sep)[0];
    } else {
      var fs := Split(rest, sep);
      assert a + rest == rest;
      assert fs == [fs[0]] + fs[1..];
      assert a + fs[0] == fs[0];
    }
  }

  /** Joining separator-free fields and splitting again gives the fields back. */
  lemma {:induction false} SplitJoin(fields: seq<string>, sep: char)
    requires |fields| >= 1
    requires forall i | 0 <= i < |fields| :: sep !in fields[i]
    ensures Split(Join(fields, sep), sep) == fields
    decreases |fields|
  {
    if |fields| == 1 {
      SplitPrefix(fields[0], "", sep);
      assert Split("", sep) == [""];
      assert fields[0] + "" == fields[0];
      assert fields == [fields[0]];
    } else {
      var tail := Join(fields[1..], sep);
      SplitJoin(fields[1..], sep);
      assert Join(fields, sep) == fields[0] + ([sep] + tail);
      SplitPrefix(fields[0], [sep] + tail, sep);
      assert ([sep] + tail)[1..] == tail;
      var after := Split([sep] + tail, sep);
      assert after == [""] + Split(tail, sep);
      assert after[0] == "" && after[1..] == fields[1..];
      assert fields[0] + "" == fields[0];
      assert fields == [fields[0]] + fields[1..];
    }
  }

  /** Two separator-free strings joined by one separator split back into the two. */
  lemma SplitTwo(a: string, b: string, sep: char)
    requires sep !in a && sep !in b
    ensures Split(a + [sep] + b, sep) == [a, b]
  {
    SplitJoin([a, b], sep);
    assert Join([a, b], sep) == a + [sep] + Join([b], sep);
  }

  /** `s.split(sep)[1]`: the second field, absent (`undefined`) when `s` has no separator. */
  function SecondField(s: string, sep: char): (r: Option<string>)
    ensures r.Some? <==> sep in s
    ensures r.Some? ==> sep !in r.value
  {
    SplitFields(s, sep);
    var fields := Split(s, sep);
    if |fields| >= 2 then Some(fields[1]) else None
  }

  /** Every character of `s` in `lo..hi` is whitespace. */
  predicate WhitespaceBetween(s: string, lo: int, hi: int)
    requires 0 <= lo && hi <= |s|
  {
    forall k | lo <= k < hi :: IsWhitespace(s[k])
  }

  /** Skips the whitespace of `s` forward from `i` (the work of `trimStart`). */
  function SkipForward(s: string, i: nat): (a: nat)
    requires i <= |s|
    ensures i <= a <= |s| && WhitespaceBetween(s, i, a)
    ensures a == |s| || !IsWhitespace(s[a])
    decreases |s| - i
  {
    if i < |s| && IsWhitespace(s[i]) then SkipForward(s, i + 1) else i
  }

  /** Skips the whitespace of `s` backward from `j`, not past `lo` (the work of `trimEnd`). */
  function SkipBackward(s: string, lo: nat, j: nat): (b: nat)
    requires lo <= j <= |s|
    ensures lo <= b <= j && WhitespaceBetween(s, b, j)
    ensures b == lo || !IsWhitespace(s[b - 1])
    decreases j
  {
    if j > lo && IsWhitespace(s[j - 1]) then SkipBackward(s, lo, j - 1) else j
  }

  /** `r` is the slice of `s` at `i`, with only whitespace before and after it. */
  ghost predicate TrimmedAt(s: string, r: string, i: int) {
    && 0 <= i && i + |r| <= |s|
    && r == s[i..i + |r|]
    && WhitespaceBetween(s, 0, i)
    && WhitespaceBetween(s, i + |r|, |s|)
  }

  /** `s.trim()`: the slice of `s` left after removing whitespace at both ends. */
  function Trim(s: string): (r: string)
    ensures exists i :: TrimmedAt(s, r, i)
    ensures r == [] || (!IsWhitespace(r[0]) && !IsWhitespace(r[|r| - 1]))
  {
    var a := SkipForward(s, 0);
    var b := SkipBackward(s, a, |s|);
    assert TrimmedAt(s, s[a..b], a);
    s[a..b]
  }

  /** A string with no whitespace at either end is its own trim. */
  lemma TrimKeepsTrimmed(s: string)
    requires s == [] || (!IsWhitespace(s[0]) && !IsWhitespace(s[|s| - 1]))
    ensures Trim(s) == s
  {
    assert s[0..|s|] == s;
  }

  /** Trimming twice is trimming once. */
  lemma TrimIdempotent(s: string)
    ensures Trim(Trim(s)) == Trim(s)
  {
    TrimKeepsTrimmed(Trim(s));
  }

  /** `s.trim()` is empty (falsy) exactly when `s` is all whitespace. */
  lemma TrimEmptyIffWhitespace(s: string)
    ensures Trim(s) == [] <==> WhitespaceBetween(s, 0, |s|)
  {
    var r := Trim(s);
    var i :| TrimmedAt(s, r, i);
    if r != [] {
      assert s[i] == r[0];
    }
  }
}

=== FILE: users_repository.dfy ===
/** `UsersRepository` (src/auth/users.repository.ts): user creation, lookup by username,
    and the pagination block of the user listing. */
module UsersRepository {
  import opened Wrappers
  import opened Http
  import opened Roles

  /** A row of the user table; `password` holds the bcrypt hash. */
  datatype User = User(id: string, username: string, password: string, roles: seq<Role>)

  /** The user table, indexed by the unique `username` column. */
  type UserTable = map<string, User>

  /** Every row sits under its own username (the column's uniqueness constraint). */
  predicate Keyed(users: UserTable) {
    forall name | name in users :: users[name].username == name
  }

  /** The values of the `id` column. */
  function Ids(users: UserTable): set<string> {
    set name | name in users :: users[name].id
  }

  /** The sign-up / sign-in body; `roles` is absent when the body has none. */
  datatype Credentials = Credentials(username: string, password: string, roles: Option<seq<Role>>)

  const UsernameTaken := "Username already exists"
  const RetrieveUsersFailed := "Failed to retrieve users"

  /** The roles `createUser` stores: the body's list whenever one is present (an empty array
      is truthy), the default list otherwise. */
  function StoredRoles(supplied: Option<seq<Role>>): (roles: seq<Role>)
    ensures supplied.Some? ==> roles == supplied.value
    ensures supplied.None? ==> roles == [DefaultRole]
  {
    supplied.GetOr([DefaultRole])
  }

  /** `prisma.user.create`: fails with the injected `fault` if there is one, with a P2002
      error if the username or the id is already taken, and otherwise adds the row. */
  function Insert(users: UserTable, row: User, fault: Option<DbError>): Result<UserTable, DbError>
  {
    if fault.Some? then Failure(fault.value)
    else if row.username in users || row.id in Ids(users) then
      Failure(DbError(Some(UniqueViolation), "Unique constraint failed"))
    else Success(users[row.username := row])
  }

  /** The `catch` block of `createUser`. */
  function CreateError(e: DbError): HttpError {
    if e.code == Some(UniqueViolation) then HttpError(Conflict, UsernameTaken)
    else HttpError(InternalServerError, DefaultInternalMessage)
  }

  /** `createUser`. `hash` and `salt` stand for bcrypt's `hash` and `genSalt`, `freshId` for
      the `uuidv4()` value, and `fault` for a failure of the store. */
  function CreateUser(users: UserTable, dto: Credentials, salt: string,
                      hash: (string, string) -> string, freshId: string,
                      fault: Option<DbError>): (r: Step<UserTable, ()>)
    requires Keyed(users)
    ensures Keyed(r.state)
    ensures r.outcome.Failure? ==> r.state == users
    ensures r.outcome.Failure? ==>
              r.outcome.error in {HttpError(Conflict, UsernameTaken), HttpError(InternalServerError, DefaultInternalMessage)}
    ensures r.outcome.Success? <==> fault.None? && dto.username !in users && freshId !in Ids(users)
    ensures fault.None? && dto.username in users ==> r.outcome == Failure(HttpError(Conflict, UsernameTaken))
    ensures fault.None? && freshId in Ids(users) ==> r.outcome == Failure(HttpError(Conflict, UsernameTaken))
    ensures fault.Some? ==> r.outcome.Failure? && (r.outcome.error.status == Conflict <==> fault.value.code == Some(UniqueViolation))
    ensures r.outcome.Success? ==>
              && r.state.Keys == users.Keys + {dto.username}
              && (forall name | name in users :: r.state[name] == users[name])
              && r.state[dto.username].id == freshId
              && r.state[dto.username].password == hash(dto.password, salt)
              && (dto.roles.Some? ==> r.state[dto.username].roles == dto.roles.value)
              && (dto.roles.None? ==> r.state[dto.username].roles == [DefaultRole])
  {
    var hashed := hash(dto.password, salt);
    var row := User(freshId, dto.username, hashed, StoredRoles(dto.roles));
    match Insert(users, row, fault)
    case Success(table) => Step(table, Success(()))
    case Failure(e) => Step(users, Failure(CreateError(e)))
  }

  /** `findOneByUsername`: the row with that username, or null; `fault` is a failure of the
      store's `findUnique`, which is passed on to the caller. */
  function FindOneByUsername(users: UserTable, username: string, fault: Option<DbError>)
    : (r: Result<Option<User>, DbError>)
    requires Keyed(users)
    ensures r.Failure? <==> fault.Some?
    ensures r.Failure? ==> r.error == fault.value
    ensures r.Success? && r.value.Some? ==> r.value.value in users.Values && r.value.value.username == username
    ensures r.Success? ==> (r.value.None? <==> forall u | u in users.Values :: u.username != username)
  {
    if fault.Some? then Failure(fault.value)
    else if username in users then Success(Some(users[username]))
    else Success(None)
  }

  /** `Math.floor(a / b)` for a non-zero divisor. */
  function FloorDiv(a: int, b: int): (q: int)
    requires b != 0
    ensures b > 0 ==> q * b <= a < q * b + b
    ensures b < 0 ==> q * b + b < a <= q * b
  {
    if b > 0 then a / b else (-a) / (-b)
  }

  /** `Math.ceil(a / b)` for a non-zero divisor. */
  function CeilDiv(a: int, b: int): (q: int)
    requires b != 0
    ensures b > 0 ==> q * b - b < a <= q * b
    ensures b < 0 ==> q * b <= a < q * b - b
  {
    -FloorDiv(-a, b)
  }

  datatype Pagination = Pagination(totalItems: int, totalPages: int, currentPage: int,
                                   itemsPerPage: int, nextPage: Option<int>, prevPage: Option<int>)

  /** The pagination block of `getAllUsers` for `count` matching rows. */
  function Paginate(count: nat, skip: int, take: int): (p: Pagination)
    requires take != 0
    ensures p.totalItems == count && p.itemsPerPage == take
  {
    var totalPages := CeilDiv(count, take);
    var currentPage := FloorDiv(skip, take) + 1;
    Pagination(count, totalPages, currentPage, take,
               if currentPage < totalPages then Some(currentPage + 1) else None,
               if currentPage > 1 then Some(currentPage - 1) else None)
  }

  /** Scaling by a positive factor keeps the order. */
  lemma ScaleMonotone(a: int, b: int, k: int)
    requires k > 0 && a <= b
    ensures a * k <= b * k
  {
    assert b * k - a * k == (b - a) * k;
  }

  /** `totalPages` is the fewest pages of `take` items that hold all `count` items. */
  lemma TotalPagesCover(count: nat, skip: int, take: int)
    requires take > 0
    ensures var t := Paginate(count, skip, take).totalPages;
            (t - 1) * take < count <= t * take
  {
    var t := Paginate(count, skip, take).totalPages;
    assert (t - 1) * take == t * take - take;
  }

  /** `currentPage` is the 1-based page that holds item number `skip`. */
  lemma CurrentPageHolds(count: nat, skip: int, take: int)
    requires take > 0 && skip >= 0
    ensures var c := Paginate(count, skip, take).currentPage;
            c >= 1 && (c - 1) * take <= skip < c * take
  {
    var q := FloorDiv(skip, take);
    assert q * take + take == (q + 1) * take;
    if q < 0 {
      ScaleMonotone(q + 1, 0, take);
    }
  }

  /** A next page, when offered, is the following page and lies within `totalPages`. */
  lemma NextPageInRange(count: nat, skip: int, take: int)
    requires take != 0
    ensures var p := Paginate(count, skip, take);
            p.nextPage.Some? ==> p.nextPage.value == p.currentPage + 1 <= p.totalPages
  {
  }

  /** For a positive page size and a non-negative offset, a next page is offered exactly
      when items remain after the current page. */
  lemma NextPageLink(count: nat, skip: int, take: int)
    requires take > 0 && skip >= 0
    ensures var p := Paginate(count, skip, take);
            p.nextPage.Some? <==> p.currentPage * take < count
  {
    var p := Paginate(count, skip, take);
    var t, c := p.totalPages, p.currentPage;
    TotalPagesCover(count, skip, take);
    if c < t {
      ScaleMonotone(c, t - 1, take);
    } else {
      ScaleMonotone(t, c, take);
    }
  }

  /** For a positive page size and a non-negative offset, a previous page is offered exactly
      when a whole page precedes the offset, and it is at least page 1. */
  lemma PrevPageLink(count: nat, skip: int, take: int)
    requires take > 0 && skip >= 0
    ensures var p := Paginate(count, skip, take);
            && (p.prevPage.Some? <==> skip >= take)
            && (p.prevPage.Some? ==> 1 <= p.prevPage.value == p.currentPage - 1)
  {
    var c := Paginate(count, skip, take).currentPage;
    CurrentPageHolds(count, skip, take);
    if c > 1 {
      ScaleMonotone(1, c - 1, take);
    } else {
      assert c - 1 == 0;
    }
  }

  /** A user row as the listing selects it: no password column. */
  datatype UserView = UserView(id: string, username: string, roles: seq<Role>)

  datatype UsersPage = UsersPage(users: seq<UserView>, pagination: Pagination)

  /** `getAllUsers`: `rows` is what the store's `findMany` returned, `count` what its
      `count` returned, `fault` a failure of either query. */
  function GetAllUsers(rows: seq<User>, count: nat, fault: Option<DbError>, skip: int, take: int)
    : (r: Result<UsersPage, HttpError>)
    requires take != 0
    ensures fault.Some? <==> r == Failure(HttpError(InternalServerError, RetrieveUsersFailed))
    ensures fault.None? ==> r.Success?
    ensures r.Success? ==> |r.value.users| == |rows|
    ensures r.Success? ==> forall i | 0 <= i < |rows| ::
              r.value.users[i] == UserView(rows[i].id, rows[i].username, rows[i].roles)
    ensures r.Success? ==> r.value.pagination == Paginate(count, skip, take)
  {
    if fault.Some? then Failure(HttpError(InternalServerError, RetrieveUsersFailed))
    else
      var views := seq(|rows|, i requires 0 <= i < |rows| => UserView(rows[i].id, rows[i].username, rows[i].roles));
      Success(UsersPage(views, Paginate(count, skip, take)))
  }

  /** `Number(x) || fallback` for a query parameter; `None` stands for a missing or
      non-numeric value (`NaN`). */
  function NumberOr(param: Option<int>, fallback: int): (n: int)
    ensures param.Some? && param.value != 0 ==> n == param.value
    ensures param.None? || param == Some(0) ==> n == fallback
  {
    if param.Some? && param.value != 0 then param.value else fallback
  }

  /** The `skip` and `take` the listing route passes on: 0 and 10 unless the query gives
      non-zero numbers, so the page size handed to `getAllUsers` is never zero. */
  function ListingParams(skip: Option<int>, take: Option<int>): (st: (int, int))
    ensures st.1 != 0
    ensures take.Some? && take.value != 0 ==> st.1 == take.value
    ensures skip.Some? && skip.value != 0 ==> st.0 == skip.value
    ensures take.None? || take == Some(0) ==> st.1 == 10
    ensures skip.None? || skip == Some(0) ==> st.0 == 0
  {
    (NumberOr(skip, 0), NumberOr(take, 10))
  }
}

=== FILE: wrappers.dfy ===
/** Optional values and results with an error channel, as used throughout the model. */
module Wrappers {

  /** JavaScript's `undefined`/`null` versus a present value. */
  datatype Option<+T> = None | Some(value: T) {

    /** The present value, or `default` when absent (the `a || b` fallback on objects). */
    function GetOr(default: T): T {
      match this
      case Some(v) => v
      case None => default
    }
  }

  /** The value an async call resolves to, or the exception it rejects with. */
  datatype Result<+T, +E> = Success(value: T) | Failure(error: E)
}
